=== FILE: README.md ===
# AI-content detector: the decision logic of the client, in Dafny

The system lets a user submit text, an image or a video and shows whether a
hosted language model judges it AI-generated. The judgement itself is an opaque
model call. What the repository decides for itself is a handful of small,
deterministic procedures, and this project models and proves them:

- **`mediaUrlToDataUri`** (module `Actions`). This server action checks a URL,
  maps the outcome of fetching it to one user-facing message or to a base64
  `data:` URI, and sniffs HTML bodies. The fetch outcome is an input. The
  base64 encoding of section 4 of RFC 4648 (module `Base64`) is written out
  in full and proved to be a bijection onto the strings its strict decoder
  accepts. Module `DataUri` builds and reads only the
  `data:<media type>;base64,<payload>` form of section 3 of RFC 2397, not the
  percent-encoded form. A built data URI reads back exactly when its media
  type holds no comma.
- **The analysis panel** (module `Panel`). This is a record of React state
  with one pure transition per handler: `handleFileSelect`, `handleAnalyze`,
  `resetState`, `handleInputTypeChange`, "Start Over", and the analyze
  button's enable rule. FileReader, the fetch and the analysis flow appear as
  given outcomes.
- **The chat report's list builders** (module `ChatReport`). These are the
  ordered detail entries, the fixed message sequence around them, and the
  content kind inferred for the breakdown card.
- **The breakdown card's selection** (module `Breakdown`). This covers the
  gauges chosen by key presence, the model colour table with its fallback, and
  the model rows.

`Contract` holds the flow output shape shared by the last three modules.
JavaScript objects that the code tests with `'key' in obj` are maps, so that a
missing key and a present empty string stay distinct. `Strings` holds the
JavaScript string operations the code uses: `startsWith`, `includes`, `trim`
and `toLowerCase`.

Points about the code worth knowing:
- The URL check is the prefix test `startsWith('http')`. It does not check
  for an HTTP(S) scheme.
- A non-OK status never reaches the user. The thrown message contains `fetch`,
  and the catch block replaces any such message with a generic one.
- The webpage heuristic looks for `<html` anywhere in the body, in any case.
  It does not look for a leading doctype or tag.
- The URL path accepts both `image/` and `video/` whichever panel calls it.
- `modelLikelihoods` entries are shown unfiltered.
- The "likelihood > 0" and "confidence in 0–1" rules appear only in prompt
  wording, so no invariant enforces them.
- The text and video output schemas declare no `dataBreakdown`.
- `modelColors` is a plain object literal. A model named after a property it
  inherits from `Object.prototype` (`constructor`, `toString`, `__proto__`, …)
  finds that inherited value, which `??` lets through, so such a row gets no
  colour string. `Breakdown.ModelColor` models this.
- The chat report mounts the breakdown card whatever the output holds, and the
  card throws on a missing breakdown (see "## Findings").

## Model

| member | source | states |
|---|---|---|
| `Actions.MediaUrlToDataUri` | src/app/actions.ts:3-40 | A URL failing the check gives "Please enter a valid URL." whatever the network does. Every error message is non-empty. A data URI comes out iff the URL, the OK status, an image/ or video/ header and a readable body all hold. It is `data:` + header verbatim + `;base64,` + base64 of the body, and it reads back as that header and those bytes when the header has no comma. |
| `Actions.CatchBlock` | src/app/actions.ts:32-39 | The message the catch block returns is never empty. |
| `Actions.ThrownMessages` | src/app/actions.ts:7-39 | Whatever throws in the try block (the fetch, the non-OK check, reading the body as text or bytes) ends in the same catch. A message containing `fetch` (case-sensitive) becomes the generic fetch error. An empty message becomes the unknown-error text. Any other message is shown verbatim. |
| `Actions.StatusErrorMentionsFetch` | src/app/actions.ts:15 | The message thrown for a non-OK response always contains `fetch`. |
| `Actions.NonOkHidesStatus` | src/app/actions.ts:14-36 | Every non-OK response gives the generic "Could not fetch media…" error, so status code and status text never reach the user. |
| `Actions.WebpageSniff` | src/app/actions.ts:23 | Trimming then lower-casing then searching for `<html` holds exactly when `<html` occurs anywhere in the body in any letter case. |
| `Actions.RejectedContentType` | src/app/actions.ts:18-27 | For an OK response with a readable body and a header that is absent or not image/ or video/, a body with `<html` anywhere gets the webpage error. Any other body gets "Unsupported or missing content type" quoting the raw header, which is `null` when absent. |
| `Actions.UrlCheckIsPrefixOnly` | src/app/actions.ts:4-6 | `httpx:` and `http` pass the URL check. An upper-case scheme, `ftp:` and the empty string fail it. |
| `Base64.Encode` | src/app/actions.ts:30 | The encoding has four characters per started group of three bytes and never contains a comma, so it cannot end the data URI's header early. |
| `Base64.DecodeEncode` | src/app/actions.ts:30 | Decoding the base64 encoding of any byte sequence gives the bytes back. |
| `Base64.EncodeDecode` | src/app/actions.ts:30 | Every string the strict decoder accepts is the encoding of what it decodes to, so encoding is a bijection onto the accepted strings. |
| `DataUri.Make` | src/app/actions.ts:31 | The URI starts with `data:<media type>;base64,`. |
| `DataUri.ParseMake` | src/app/actions.ts:31 | A built URI reads back as its media type and bytes exactly when the media type holds no comma. |
| `DataUri.MakeParse` | src/app/actions.ts:31 | Every URI the reader accepts is the one built from what it read. |
| `Strings.Trim` | src/components/analysis-panel.tsx:108 | `trim()` returns a slice of the input with only whitespace cut from each end. It is empty exactly when the input is all whitespace. |
| `Panel.HandleFileSelect` | src/components/analysis-panel.tsx:46-68 | The corrected handler (see "## Findings"); `Panel.HandleFileSelectAsWritten` is the code as written. With no file, nothing changes. In a panel with `fileTypes`, a file whose type lacks the `<kind>/` prefix gets "Please upload a <kind> file (e.g., <desc>)." whatever the read would give. An accepted readable file becomes the preview and clears result and error. A failed read shows "Failed to read the selected file." and keeps the preview. Text, URL, mode and loading flag never change. |
| `Panel.HandleFileSelectAsWritten` | src/components/analysis-panel.tsx:56-67 | After a failed read of an accepted file, both error and preview are null. |
| `Panel.ReadFailureMessageLost` | src/components/analysis-panel.tsx:57-66 | On a failed read, the handler as written ends with no error, while the corrected handler shows the read error. |
| `Panel.FileSelectVersionsAgree` | src/components/analysis-panel.tsx:46-68 | On every input except a failed read of an accepted file, the handler as written and the corrected one agree. |
| `Panel.MountedPanelGates` | src/components/analysis-panel.tsx:49 | For the three panels the page mounts, the text panel accepts every file. The image and video panels accept exactly the types starting with `image/` or `video/`. So `image/gif` passes the image panel although its `fileTypes` list omits GIF, and `image/png` fails the video panel. |
| `Panel.AcceptedFileHasPanelKind` | src/components/analysis-panel.tsx:49-58 | A file the image or video panel accepts, whose type holds no comma, gives a preview that reads back as a media type of the panel's kind and the file's bytes. |
| `Panel.ResetState` | src/components/analysis-panel.tsx:88-98 | Preview, text, result, error, loading flag and URL are cleared, and the input mode is kept. |
| `Panel.ResetForgets` | src/components/analysis-panel.tsx:88-98 | Two states with the same mode reset to the same state, and resetting is idempotent. |
| `Panel.HandleInputTypeChange` | src/components/analysis-panel.tsx:149-154 | The mode becomes the chosen one. Choosing the current mode changes nothing. Choosing another mode resets the panel. |
| `Panel.InputTypeChangeProperties` | src/components/analysis-panel.tsx:149-154 | Choosing a mode twice is the same as choosing it once. Leaving a mode and returning to it leaves a reset panel. |
| `Panel.StartOver` | src/components/analysis-panel.tsx:157 | "Start Over" returns the panel to its initial state from any state. |
| `Panel.MediaRequest` | src/components/analysis-panel.tsx:133 | An image panel sends the key `photoDataUri` and a video panel sends `videoDataUri`. Either way the request carries the given data URI. |
| `Panel.HandleAnalyze` | src/components/analysis-panel.tsx:100-147 | `isLoading` is false after every path. Text, URL and mode are kept. When nothing is sent, a non-empty error is shown and the result is untouched. In a text panel, a request goes out iff the text is not all whitespace, and it carries the untrimmed text; otherwise the error is "Please enter some text to analyze.". An image panel sends `photoDataUri` and a video panel sends `videoDataUri`. A resolved action stores its output and clears the error. A throwing action clears the result and sets its message as the error, or "An unexpected error occurred during analysis." when the message is empty. The preview is kept in the text panel and in upload mode. |
| `Panel.UrlModeAnalyze` | src/components/analysis-panel.tsx:115-125 | In URL mode, the server action's error is stored verbatim, nothing is sent and the preview is kept. On success, the data URI becomes the preview and is sent. |
| `Panel.UploadModeAnalyze` | src/components/analysis-panel.tsx:115-133 | In upload mode without a preview, the error is "Please select a <kind> or provide a URL." and nothing is sent. Otherwise the stored preview is sent. |
| `Panel.AnalyzeEnabled` | src/components/analysis-panel.tsx:276 | The button is never enabled while loading. In the text panel it is enabled iff not loading and the text is not all whitespace. In upload mode of a media panel it is enabled iff not loading and a non-empty preview exists. In URL mode it is enabled iff not loading and the URL is not empty. |
| `Panel.EnabledMeansSent` | src/components/analysis-panel.tsx:276 | In the text panel and in upload mode, the button is enabled exactly when pressing it sends a request. In every mode, a request that goes out came from an enabled button. |
| `ChatReport.KeepTruthy` | src/components/ai-chat-report.tsx:57-69 | The table filter keeps the rows whose field is truthy, in row order and at most once each: there is a strictly increasing choice of rows such that each entry shows its row's title and field with the branch's icon. Every row whose field is truthy appears. |
| `ChatReport.ModalityDetails` | src/components/ai-chat-report.tsx:57-69 | With no branch taken there are no modality entries. Every entry carries the icon of the branch that was taken. |
| `ChatReport.ModalityDetailsByTable` | src/components/ai-chat-report.tsx:57-69 | The branches as written equal the table filter of the single branch chosen by key presence: text, then image, then video. They give nothing when no branch applies. |
| `ChatReport.ModalityDetailsShape` | src/components/ai-chat-report.tsx:57-69 | The modality part has at most three entries. None is empty and none is titled "Potential Modifications". |
| `ChatReport.Details` | src/components/ai-chat-report.tsx:50-71 | There are at most 4 entries. A leading "Potential Modifications" entry, holding the areas, appears iff `isAiGenerated` and the areas are truthy, and the title appears at no other position. Every entry has non-empty content. After the optional lead come exactly the truthy fields of the branch chosen by key presence (text, then image, then video), in row order with that branch's icon. There is nothing after the lead when no branch applies. |
| `ChatReport.Messages` | src/components/ai-chat-report.tsx:73-97 | The list has 4 + (number of details) entries. The user prompt comes first, then "Initial Determination" with the verdict's sentence and icon, then "Confidence Score & Summary" reading "My confidence in this assessment is **<confidence>%**. " followed by the summary, then the details in order, and the `data_breakdown` sentinel comes last. |
| `ChatReport.ConfidenceReadBack` | src/components/ai-chat-report.tsx:83 | The confidence message reads back as exactly the confidence it was built from, negative values included. |
| `Strings.ParseIntToString` | src/components/ai-chat-report.tsx:83 | An integer rendered in a template literal reads back as that integer. |
| `ChatReport.DeterminationTextDistinct` | src/components/ai-chat-report.tsx:77 | The determination sentence is the same for two verdicts iff the verdicts are equal, so the message carries the verdict and nothing else. |
| `ChatReport.BreakdownModality` | src/components/ai-chat-report.tsx:125-130 | The kind is text iff the details take the text branch. It is video only when `temporalInconsistencies` is present. It is image iff the details do not take the text branch and that key is absent. |
| `ChatReport.ModalityInferencesAgree` | src/components/ai-chat-report.tsx:125-130 | The breakdown kind agrees with the details' branch except when both `visualInconsistencies` and `temporalInconsistencies` are present without `linguisticPatterns`. With no branch, the kind is image. |
| `ChatReport.ShapedOutputsAgree` | src/components/ai-chat-report.tsx:125-130 | For outputs that carry only their schema's keys, the two inferences agree whenever the details take a branch. |
| `Breakdown.Gauges` | src/components/data-breakdown.tsx:108-124 | A `deepfakeLikelihood` key gives [AI, Deepfake, Quality] and wins over a readability key. Otherwise a `readabilityScore` key gives [AI, Readability, Originality]. With neither key the list is empty. Every gauge shows its score unchanged, undefined when absent, and the first gauge is the AI likelihood. |
| `Breakdown.ModelColor` | src/components/data-breakdown.tsx:146 | A name gets a non-colour value exactly when it is inherited from `Object.prototype`. Every colour given is a chart colour or the foreground colour. |
| `Breakdown.ModelColorPalette` | src/components/data-breakdown.tsx:41-58 | A listed model gets its table colour, which is one of the five chart colours. The foreground colour goes to exactly the names that are neither listed nor inherited from `Object.prototype`. |
| `Breakdown.ModelRows` | src/components/data-breakdown.tsx:142-151 | There is one row per entry, in input order, with model and likelihood unchanged, so zero or negative likelihoods are kept. Each row has its model's swatch, which is not a colour for an inherited name. |
| `Breakdown.Render` | src/components/data-breakdown.tsx:106-157 | The card renders iff a breakdown object is present, because `'key' in undefined` throws. A present breakdown shows exactly its gauges and its model rows. |
| `Breakdown.ShapedBreakdowns` | src/components/data-breakdown.tsx:108-124 | An image-shaped output shows AI, Deepfake and Quality with all values defined. Text- and video-shaped outputs have no breakdown, so the card cannot render. No shaped output gets the readability gauges. |
| `Breakdown.ReportCardAsWritten` | src/components/ai-chat-report.tsx:132 | The closing message throws exactly when the output has no breakdown. Otherwise it shows the card of that breakdown: its gauges and its model rows. |
| `Breakdown.TextAndVideoReportsCrash` | src/components/ai-chat-report.tsx:132 | For every text- or video-shaped output, the closing message as written throws. |
| `Breakdown.ReportCard` | src/components/ai-chat-report.tsx:132 | The corrected closing message never throws, hides the card exactly when there is no breakdown, and otherwise shows what the code as written shows. |

## Left out

- The analysis flows are prompt templates around an opaque model call, so they are left out. Their output schemas give the shape of `Contract.AnalysisOutput`. The analysis action appears in `Panel.HandleAnalyze` as a given outcome.
- `DataUri.Parse` reads only the `;base64` form, because that is the only form the code builds. Percent-encoded data URIs without `;base64` are not modelled.
- I/O is left out: `fetch`, `FileReader`, `Buffer`, toasts and `console.error`. Their results are inputs. The `Accept` request header only influences what the server sends, which is already an input.
- The link between a response's `text()` and its `arrayBuffer()` (UTF-8 decoding) is not modelled, because decoding is outside the logic. The model takes the two as given views of one body.
- `Strings.ToLower` lowers only ASCII letters. No non-ASCII character lowers to `<`, `h`, `t`, `m` or `l`, so the `<html` search is unaffected.
- Floating point is left out: `Math.round(confidenceScore * 100)` becomes the integer input `confidence` of `ChatReport.Messages`. Gauge SVG offsets and count-up easing are also left out. Scores are reals and only passed through.
- Timers and animation are left out: message delays, the typewriter hook and the drag highlight (`isDragging`).
- Each handler is one atomic step. Interleavings of asynchronous completions, such as a file read finishing during an analysis, are not modelled.
- A thrown value with no string `message` is not modelled. If one occurred, the catch block's `error.message.includes` would itself throw. A failed call to the server action is not modelled either: the model assumes `mediaUrlToDataUri` always returns.
- An analysis action that resolves to `null` is not modelled. The model always stores the resolved output.
- `readAsDataURL` is modelled by the File API's rule, which gives no media type when the file's type is empty. Some browsers put `application/octet-stream` there instead.
- `onFileChange`, `onDrop` and the text and URL `onChange` handlers are left out. The first two only pick the first file, which is the `Option<File>` input. The text box's handler only sets the text. The URL input's handler sets the URL and clears the error.
- `Panel.ResetState` does not model clearing the hidden file input's value (`fileInputRef`), because that input's value is DOM state outside the panel's React state.
- Rendering is left out: the result card, the layout, and the `analysisType` prop that `DataBreakdown` receives but never reads.

## Findings

| source | as written | input that shows it | evidently intended | confidence | as-written member | corrected member |
|---|---|---|---|---|---|---|
| src/components/analysis-panel.tsx:57-66 | The preview update sits in `onloadend`, which FileReader fires after `error` as well as after `load`. On a failed read, `onerror` sets "Failed to read the selected file." and `onloadend` then clears it and sets the preview to the reader's `null` result. | an accepted file whose read fails | keep the read error on screen and leave the preview alone (update on `load` only) | medium; not executed | `Panel.HandleFileSelectAsWritten`, `Panel.ReadFailureMessageLost` | `Panel.HandleFileSelect` |
| src/components/ai-chat-report.tsx:132, src/components/data-breakdown.tsx:109 | The report's closing message always mounts `DataBreakdown` with the output's `dataBreakdown`. The text and video schemas declare none, so `data` is `undefined` and `'deepfakeLikelihood' in data` throws a TypeError. | any text- or video-shaped output | mount the card only when a breakdown is present | medium; not executed; nothing reachable from src/app/page.tsx (page, `AIHumanDetector`, `AnalysisPanel`, `AnalysisResult`) mounts `AiChatReport` | `Breakdown.ReportCardAsWritten`, `Breakdown.TextAndVideoReportsCrash` | `Breakdown.ReportCard` |

=== FILE: actions.dfy ===
/** `mediaUrlToDataUri` (src/app/actions.ts): turns a user-supplied URL into
    a base64 data URI, or into one user-facing error message. The network
    fetch is not performed here: its outcome is an input. */
module Actions {
  import opened Wrappers
  import opened Strings
  import Base64
  import DataUri

  /** What reading the response body yields: `text()` and `arrayBuffer()` are
      two views of the same body (the UTF-8 decoding that links them is not
      modelled), or the read throws. */
  datatype Body = Body(text: string, bytes: seq<Base64.byte>) | BodyThrew(message: string)

  datatype Response = Response(
    ok: bool,
    status: nat,
    statusText: string,
    contentType: Option<string>,   // `headers.get('content-type')`, None for null
    body: Body)

  /** What `fetch(url, …)` does: throws (network failure, unparsable URL, …)
      or resolves to a response. */
  datatype FetchOutcome = FetchThrew(message: string) | Responded(response: Response)

  /** The object the server action returns: exactly one of `error` or `dataUri`. */
  datatype UrlResult = UrlError(error: string) | UrlDataUri(dataUri: string)

  /** How the `try` block ends: with a `return` or with a thrown Error. */
  datatype Attempt = Returned(result: UrlResult) | Threw(message: string)

  const InvalidUrlError := "Please enter a valid URL."
  const FetchFailedError := "Could not fetch media from the provided URL. Please check the URL and try again."
  const WebpageError := "The URL points to a webpage, not a direct image or video file. Please provide a direct link to the media."
  const UnknownError := "An unknown error occurred while fetching the URL."

  function UnsupportedTypeError(header: string): string
  {
    "Unsupported or missing content type: '" + header + "'. Please provide a direct URL to an image or video file."
  }

  /** The guard on the URL: non-empty and starting with the literal `http`. */
  predicate PassesUrlCheck(url: string)
  {
    url != "" && StartsWith(url, "http")
  }

  /** The content-type gate: a header that is present and starts,
      case-sensitively, with `image/` or `video/` (an empty header is falsy
      and fails both prefixes anyway). */
  predicate IsMediaType(contentType: Option<string>)
  {
    contentType.Some? && (StartsWith(contentType.value, "image/") || StartsWith(contentType.value, "video/"))
  }

  /** The header as a template literal renders it: `null` when absent. */
  function HeaderText(contentType: Option<string>): string
  {
    match contentType
    case None => "null"
    case Some(h) => h
  }

  /** The message thrown for a non-OK response. */
  function StatusError(r: Response): string
  {
    "Failed to fetch media from URL: " + NatToString(r.status) + " " + r.statusText
  }

  /** The webpage heuristic as written: the trimmed, lower-cased body text
      contains `<html`. */
  predicate LooksLikeWebpage(text: string)
  {
    Contains(ToLower(Trim(text)), "<html")
  }

  /** `<html` in any letter case starts at position `i` of `text`. */
  predicate HtmlTagAt(text: string, i: int)
  {
    0 <= i && i + 5 <= |text| && ToLower(text[i..i + 5]) == "<html"
  }

  /** The reference reading of the heuristic: `<html`, in any letter case,
      occurs anywhere in the body. */
  predicate HasHtmlTag(text: string)
  {
    exists i | 0 <= i <= |text| - 5 :: HtmlTagAt(text, i)
  }

  /** The `try` block after the URL check. */
  function TryBlock(outcome: FetchOutcome): Attempt
  {
    match outcome
    case FetchThrew(m) => Threw(m)
    case Responded(r) =>
      if !r.ok then Threw(StatusError(r))
      else if !IsMediaType(r.contentType) then
        match r.body
        case BodyThrew(m) => Threw(m)
        case Body(text, _) =>
          if LooksLikeWebpage(text) then Returned(UrlError(WebpageError))
          else Returned(UrlError(UnsupportedTypeError(HeaderText(r.contentType))))
      else
        match r.body
        case BodyThrew(m) => Threw(m)
        case Body(_, bytes) => Returned(UrlDataUri(DataUri.Make(r.contentType.value, bytes)))
  }

  /** The `catch` block: any message mentioning `fetch` becomes the generic
      fetch error, an empty message the unknown-error text, and any other
      message is passed through. */
  function CatchBlock(message: string): (r: string)
    ensures r != ""
  {
    if Contains(message, "fetch") then FetchFailedError
    else if message == "" then UnknownError
    else message
  }

  /** The whole server action, given the URL and what fetching it yields. */
  function MediaUrlToDataUri(url: string, outcome: FetchOutcome): (r: UrlResult)
    // a URL failing the prefix check is refused whatever the network would do
    ensures !PassesUrlCheck(url) ==> r == UrlError(InvalidUrlError)
    // every error is non-empty, so the caller's truthiness test sees it
    ensures r.UrlError? ==> r.error != ""
    // a data URI comes out exactly when the URL, status, header and body all pass
    ensures r.UrlDataUri? <==> Succeeds(url, outcome)
    // and it carries the header verbatim and the body bytes
    ensures Succeeds(url, outcome) ==>
      r.dataUri == DataUri.Make(outcome.response.contentType.value, outcome.response.body.bytes)
    // so it reads back as that header and those bytes when the header has no comma
    ensures Succeeds(url, outcome) && ',' !in outcome.response.contentType.value ==>
      DataUri.Parse(r.dataUri)
        == Some(DataUri.Parsed(outcome.response.contentType.value, outcome.response.body.bytes))
  {
    if !PassesUrlCheck(url) then UrlError(InvalidUrlError)
    else
      match TryBlock(outcome)
      case Returned(result) =>
        if Succeeds(url, outcome) then
          DataUri.ParseMake(outcome.response.contentType.value, outcome.response.body.bytes);
          result
        else
          result
      case Threw(m) => UrlError(CatchBlock(m))
  }

  /** The conditions for a data URI: a URL passing the check, an OK response,
      an image or video header, and a body that reads. */
  predicate Succeeds(url: string, outcome: FetchOutcome)
  {
    && PassesUrlCheck(url)
    && outcome.Responded?
    && outcome.response.ok
    && IsMediaType(outcome.response.contentType)
    && outcome.response.body.Body?
  }

  lemma StatusErrorMentionsFetch(r: Response)
    ensures Contains(StatusError(r), "fetch")
  {
    var prefix := "Failed to fetch media from URL: ";
    var s := StatusError(r);
    assert s == prefix + (NatToString(r.status) + " " + r.statusText);
    assert prefix == "Failed to " + "fetch" + " media from URL: ";
    assert s[10..15] == prefix[10..15] == "fetch";
    assert OccursAt(s, "fetch", 10);
  }

  /** Any non-OK response yields the generic fetch error: neither the status
      code nor the status text ever reaches the user. */
  lemma NonOkHidesStatus(url: string, r: Response)
    requires PassesUrlCheck(url) && !r.ok
    ensures MediaUrlToDataUri(url, Responded(r)) == UrlError(FetchFailedError)
  {
    StatusErrorMentionsFetch(r);
  }

  /** Whatever throws inside the `try` block (the fetch itself, the non-OK
      check, reading the body as text or as bytes) reaches the same `catch`:
      a message mentioning `fetch` (case-sensitively) becomes the generic
      error, an empty one the unknown-error text, and any other is shown as
      it is. */
  lemma ThrownMessages(url: string, outcome: FetchOutcome, m: string)
    requires PassesUrlCheck(url) && TryBlock(outcome) == Threw(m)
    ensures Contains(m, "fetch") ==> MediaUrlToDataUri(url, outcome) == UrlError(FetchFailedError)
    ensures !Contains(m, "fetch") && m != "" ==> MediaUrlToDataUri(url, outcome) == UrlError(m)
    ensures m == "" ==> MediaUrlToDataUri(url, outcome) == UrlError(UnknownError)
  {
  }

  /** `ToLower` commutes with slicing. */
  lemma LowerSlice(t: string, i: int, j: int)
    requires 0 <= i <= j <= |t|
    ensures ToLower(t)[i..j] == ToLower(t[i..j])
  {
  }

  /** Only `<` lowers to `<`, and the letters of `html` are not whitespace. */
  lemma HtmlTagEnds(text: string, i: int)
    requires HtmlTagAt(text, i)
    ensures !IsJsWhitespace(text[i]) && !IsJsWhitespace(text[i + 4])
  {
    assert ToLower(text[i..i + 5])[0] == LowerChar(text[i]) == '<';
    assert ToLower(text[i..i + 5])[4] == LowerChar(text[i + 4]) == 'l';
  }

  /** Trimming before the search changes nothing: the heuristic as written
      holds exactly when `<html`, in any letter case, occurs anywhere in the
      body. */
  lemma WebpageSniff(text: string)
    ensures LooksLikeWebpage(text) <==> HasHtmlTag(text)
  {
    var u := Trim(text);
    var a, b :| TrimmedSlice(text, a, b) && u == text[a..b];
    if LooksLikeWebpage(text) {
      SniffFindsTag(text, u, a, b);
    }
    if HasHtmlTag(text) {
      TagSurvivesTrim(text, u, a, b);
    }
  }

  lemma SniffFindsTag(text: string, u: string, a: int, b: int)
    requires TrimmedSlice(text, a, b) && u == text[a..b]
    requires Contains(ToLower(u), "<html")
    ensures HasHtmlTag(text)
  {
    var j :| 0 <= j <= |u| - 5 && OccursAt(ToLower(u), "<html", j);
    LowerSlice(u, j, j + 5);
    SliceOfSlice(text, a, b, j, j + 5);
    assert HtmlTagAt(text, a + j);
  }

  lemma TagSurvivesTrim(text: string, u: string, a: int, b: int)
    requires TrimmedSlice(text, a, b) && u == text[a..b]
    requires HasHtmlTag(text)
    ensures Contains(ToLower(u), "<html")
  {
    var i :| 0 <= i <= |text| - 5 && HtmlTagAt(text, i);
    HtmlTagEnds(text, i);
    // the tag's first and last characters are not whitespace, so they lie
    // inside the trimmed slice
    assert a <= i && i + 5 <= b;
    SliceOfSlice(text, a, b, i - a, i - a + 5);
    LowerSlice(u, i - a, i - a + 5);
    assert OccursAt(ToLower(u), "<html", i - a);
  }

  /** A response whose header is absent or not image/video never yields a
      data URI: a body with `<html` in any case anywhere gets the webpage
      error, any other body the unsupported-type error quoting the raw
      header (`null` when absent). */
  lemma RejectedContentType(url: string, r: Response)
    requires PassesUrlCheck(url) && r.ok && !IsMediaType(r.contentType) && r.body.Body?
    ensures MediaUrlToDataUri(url, Responded(r))
      == UrlError(if HasHtmlTag(r.body.text) then WebpageError else UnsupportedTypeError(HeaderText(r.contentType)))
  {
    WebpageSniff(r.body.text);
  }

  /** The check is a prefix test and nothing more: `httpx:` passes, an
      upper-case scheme does not. */
  lemma UrlCheckIsPrefixOnly()
    ensures PassesUrlCheck("httpx:") && PassesUrlCheck("http")
    ensures !PassesUrlCheck("HTTP://example.com") && !PassesUrlCheck("ftp://example.com") && !PassesUrlCheck("")
  {
    assert "HTTP://example.com"[..4][0] == 'H';
    assert "ftp://example.com"[..4][0] == 'f';
  }
}

=== FILE: base64.dfy ===
/** The base64 encoding of section 4 of RFC 4648 (standard alphabet, `=`
    padding), which Node's `Buffer.toString('base64')` produces, together with
    a strict decoder that accepts exactly the encoder's outputs. */
module Base64 {
  import opened Wrappers

  type byte = x: int | 0 <= x < 256

  /** The 6-bit value `v` as a character of the base64 alphabet
      `A-Z a-z 0-9 + /`. */
  function Char(v: int): (c: char)
    requires 0 <= v < 64
    ensures c != '=' && c != ',' && c != ';'
  {
    if v < 26 then ('A' as int + v) as char
    else if v < 52 then ('a' as int + (v - 26)) as char
    else if v < 62 then ('0' as int + (v - 52)) as char
    else if v == 62 then '+'
    else '/'
  }

  /** The 6-bit value a character of the alphabet stands for; None for every
      other character, the pad `=` included. */
  function Value(c: char): (r: Option<int>)
    ensures r.Some? ==> 0 <= r.value < 64 && Char(r.value) == c
  {
    if 'A' <= c <= 'Z' then Some(c as int - 'A' as int)
    else if 'a' <= c <= 'z' then Some(c as int - 'a' as int + 26)
    else if '0' <= c <= '9' then Some(c as int - '0' as int + 52)
    else if c == '+' then Some(62)
    else if c == '/' then Some(63)
    else None
  }

  lemma ValueOfChar(v: int)
    requires 0 <= v < 64
    ensures Value(Char(v)) == Some(v)
  {
  }

  /** Three bytes as four characters. */
  function EncodeGroup(b0: byte, b1: byte, b2: byte): string
  {
    [Char(b0 / 4), Char((b0 % 4) * 16 + b1 / 16), Char((b1 % 16) * 4 + b2 / 64), Char(b2 % 64)]
  }

  /** Base64 encoding: every full group of three bytes becomes four
      characters; a final one or two bytes become four characters ending in
      `==` or `=`. */
  function Encode(bs: seq<byte>): (r: string)
    ensures |r| == 4 * ((|bs| + 2) / 3)
    ensures forall i :: 0 <= i < |r| ==> r[i] != ','
    decreases |bs|
  {
    if |bs| == 0 then ""
    else if |bs| == 1 then [Char(bs[0] / 4), Char((bs[0] % 4) * 16), '=', '=']
    else if |bs| == 2 then [Char(bs[0] / 4), Char((bs[0] % 4) * 16 + bs[1] / 16), Char((bs[1] % 16) * 4), '=']
    else EncodeGroup(bs[0], bs[1], bs[2]) + Encode(bs[3..])
  }

  /** Four characters as three bytes, when all four are in the alphabet. */
  function DecodeGroup(s: string): Option<seq<byte>>
    requires |s| == 4
  {
    match (Value(s[0]), Value(s[1]), Value(s[2]), Value(s[3]))
    case (Some(c0), Some(c1), Some(c2), Some(c3)) =>
      Some([c0 * 4 + c1 / 16, (c1 % 16) * 16 + c2 / 4, (c2 % 4) * 64 + c3])
    case _ => None
  }

  /** Strict base64 decoding: the length is a multiple of four, padding
      appears only at the very end, and the bits a padded group leaves unused
      are zero. None for any other string. */
  function Decode(s: string): Option<seq<byte>>
    decreases |s|
  {
    if |s| == 0 then Some([])
    else if |s| < 4 then None
    else if |s| == 4 && s[2] == '=' && s[3] == '=' then
      match (Value(s[0]), Value(s[1]))
      case (Some(c0), Some(c1)) =>
        if c1 % 16 == 0 then Some([c0 * 4 + c1 / 16]) else None
      case _ => None
    else if |s| == 4 && s[3] == '=' then
      match (Value(s[0]), Value(s[1]), Value(s[2]))
      case (Some(c0), Some(c1), Some(c2)) =>
        if c2 % 4 == 0 then Some([c0 * 4 + c1 / 16, (c1 % 16) * 16 + c2 / 4]) else None
      case _ => None
    else
      match (DecodeGroup(s[..4]), Decode(s[4..]))
      case (Some(g), Some(rest)) => Some(g + rest)
      case _ => None
  }

  /** Three bytes split into four sextets and joined again. */
  lemma SplitBytes(b0: byte, b1: byte, b2: byte)
    ensures var c0, c1, c2, c3 := b0 / 4, (b0 % 4) * 16 + b1 / 16, (b1 % 16) * 4 + b2 / 64, b2 % 64;
      && 0 <= c0 < 64 && 0 <= c1 < 64 && 0 <= c2 < 64 && 0 <= c3 < 64
      && c0 * 4 + c1 / 16 == b0 && (c1 % 16) * 16 + c2 / 4 == b1 && (c2 % 4) * 64 + c3 == b2
  {
    var c1, c2 := (b0 % 4) * 16 + b1 / 16, (b1 % 16) * 4 + b2 / 64;
    assert c1 / 16 == b0 % 4 && c1 % 16 == b1 / 16;
    assert c2 / 4 == b1 % 16 && c2 % 4 == b2 / 64;
  }

  /** Four sextets joined into three bytes and split again. */
  lemma JoinSextets(c0: int, c1: int, c2: int, c3: int)
    requires 0 <= c0 < 64 && 0 <= c1 < 64 && 0 <= c2 < 64 && 0 <= c3 < 64
    ensures var b0, b1, b2 := c0 * 4 + c1 / 16, (c1 % 16) * 16 + c2 / 4, (c2 % 4) * 64 + c3;
      && 0 <= b0 < 256 && 0 <= b1 < 256 && 0 <= b2 < 256
      && b0 / 4 == c0 && (b0 % 4) * 16 + b1 / 16 == c1 && (b1 % 16) * 4 + b2 / 64 == c2 && b2 % 64 == c3
  {
    var b0, b1, b2 := c0 * 4 + c1 / 16, (c1 % 16) * 16 + c2 / 4, (c2 % 4) * 64 + c3;
    assert b0 / 4 == c0 && b0 % 4 == c1 / 16;
    assert b1 / 16 == c1 % 16 && b1 % 16 == c2 / 4;
    assert b2 / 64 == c2 % 4 && b2 % 64 == c3;
  }

  lemma GroupRoundTrip(b0: byte, b1: byte, b2: byte)
    ensures DecodeGroup(EncodeGroup(b0, b1, b2)) == Some([b0, b1, b2])
  {
    SplitBytes(b0, b1, b2);
    ValueOfChar(b0 / 4);
    ValueOfChar((b0 % 4) * 16 + b1 / 16);
    ValueOfChar((b1 % 16) * 4 + b2 / 64);
    ValueOfChar(b2 % 64);
  }

  lemma PairLiteralRoundTrip(b0: byte, b1: byte)
    ensures Decode([Char(b0 / 4), Char((b0 % 4) * 16 + b1 / 16), Char((b1 % 16) * 4), '=']) == Some([b0, b1])
  {
    var c0, c1, c2 := b0 / 4, (b0 % 4) * 16 + b1 / 16, (b1 % 16) * 4;
    ValueOfChar(c0);
    ValueOfChar(c1);
    ValueOfChar(c2);
    assert c1 / 16 == b0 % 4 && c1 % 16 == b1 / 16;
    assert c2 / 4 == b1 % 16 && c2 % 4 == 0;
  }

  lemma SingleLiteralRoundTrip(b0: byte)
    ensures Decode([Char(b0 / 4), Char((b0 % 4) * 16), '=', '=']) == Some([b0])
  {
    ValueOfChar(b0 / 4);
    ValueOfChar((b0 % 4) * 16);
  }

  /** A full group followed by any decodable rest decodes group by group. */
  lemma DecodeConcat(g: string, rest: string, x: seq<byte>, y: seq<byte>)
    requires |g| == 4 && DecodeGroup(g) == Some(x) && Decode(rest) == Some(y)
    ensures Decode(g + rest) == Some(x + y)
  {
    var s := g + rest;
    assert s[..4] == g && s[4..] == rest;
    assert Value(s[3]).Some?;
  }

  /** Encoding three or more bytes is a full group followed by the rest. */
  lemma EncodeCons(bs: seq<byte>)
    requires |bs| >= 3
    ensures Encode(bs) == EncodeGroup(bs[0], bs[1], bs[2]) + Encode(bs[3..])
  {
    assert !(|bs| == 0 || |bs| == 1 || |bs| == 2);
  }

  /** A full group in front of any string that decodes to the rest. */
  lemma GroupsRoundTrip(bs: seq<byte>, e: string)
    requires |bs| >= 3 && Decode(e) == Some(bs[3..])
    ensures Decode(EncodeGroup(bs[0], bs[1], bs[2]) + e) == Some(bs)
  {
    GroupRoundTrip(bs[0], bs[1], bs[2]);
    DecodeConcat(EncodeGroup(bs[0], bs[1], bs[2]), e, [bs[0], bs[1], bs[2]], bs[3..]);
    assert [bs[0], bs[1], bs[2]] + bs[3..] == bs;
  }

  /** Decoding undoes encoding. */
  lemma {:induction false} DecodeEncode(bs: seq<byte>)
    ensures Decode(Encode(bs)) == Some(bs)
    decreases |bs|
  {
    if |bs| == 1 {
      SingleLiteralRoundTrip(bs[0]);
      assert [bs[0]] == bs;
    } else if |bs| == 2 {
      PairLiteralRoundTrip(bs[0], bs[1]);
      assert [bs[0], bs[1]] == bs;
    } else if |bs| >= 3 {
      DecodeEncode(bs[3..]);
      EncodeCons(bs);
      GroupsRoundTrip(bs, Encode(bs[3..]));
    }
  }

  lemma GroupInverse(s: string)
    requires |s| == 4 && DecodeGroup(s).Some?
    ensures |DecodeGroup(s).value| == 3
    ensures EncodeGroup(DecodeGroup(s).value[0], DecodeGroup(s).value[1], DecodeGroup(s).value[2]) == s
  {
    var c0, c1, c2, c3 := Value(s[0]).value, Value(s[1]).value, Value(s[2]).value, Value(s[3]).value;
    assert DecodeGroup(s).value == [c0 * 4 + c1 / 16, (c1 % 16) * 16 + c2 / 4, (c2 % 4) * 64 + c3];
    SextetsEncode(c0, c1, c2, c3);
    assert s == [Char(c0), Char(c1), Char(c2), Char(c3)];
  }

  /** Encoding the bytes four sextets join into gives back those sextets' characters. */
  lemma SextetsEncode(c0: int, c1: int, c2: int, c3: int)
    requires 0 <= c0 < 64 && 0 <= c1 < 64 && 0 <= c2 < 64 && 0 <= c3 < 64
    ensures 0 <= c0 * 4 + c1 / 16 < 256 && 0 <= (c1 % 16) * 16 + c2 / 4 < 256 && 0 <= (c2 % 4) * 64 + c3 < 256
    ensures EncodeGroup(c0 * 4 + c1 / 16, (c1 % 16) * 16 + c2 / 4, (c2 % 4) * 64 + c3)
      == [Char(c0), Char(c1), Char(c2), Char(c3)]
  {
    JoinSextets(c0, c1, c2, c3);
  }

  lemma PairInverse(s: string)
    requires |s| == 4 && s[3] == '=' && s[2] != '=' && Decode(s).Some?
    ensures Encode(Decode(s).value) == s
  {
    var c0, c1, c2 := Value(s[0]).value, Value(s[1]).value, Value(s[2]).value;
    var b0, b1 := c0 * 4 + c1 / 16, (c1 % 16) * 16 + c2 / 4;
    assert Decode(s).value == [b0, b1];
    assert b0 / 4 == c0 && b0 % 4 == c1 / 16;
    assert b1 / 16 == c1 % 16 && (b1 % 16) * 4 == c2;
  }

  lemma SingleInverse(s: string)
    requires |s| == 4 && s[2] == '=' && s[3] == '=' && Decode(s).Some?
    ensures Encode(Decode(s).value) == s
  {
    var c0, c1 := Value(s[0]).value, Value(s[1]).value;
    var b0 := c0 * 4 + c1 / 16;
    assert Decode(s).value == [b0];
    assert b0 / 4 == c0 && (b0 % 4) * 16 == c1;
  }

  /** Encoding undoes decoding: every string the decoder accepts is the
      encoding of what it decodes to, so the encoding is a bijection between
      byte sequences and the strings Decode accepts. */
  lemma {:induction false} EncodeDecode(s: string)
    requires Decode(s).Some?
    ensures Encode(Decode(s).value) == s
    decreases |s|
  {
    if |s| == 4 && s[2] == '=' && s[3] == '=' {
      SingleInverse(s);
    } else if |s| == 4 && s[3] == '=' {
      PairInverse(s);
    } else if |s| >= 4 {
      var g := DecodeGroup(s[..4]).value;
      var rest := Decode(s[4..]).value;
      GroupInverse(s[..4]);
      EncodeDecode(s[4..]);
      assert Decode(s).value == g + rest;
      assert (g + rest)[3..] == rest;
      assert s == s[..4] + s[4..];
    }
  }
}

=== FILE: breakdown.dfy ===
/** The data-breakdown card (src/components/data-breakdown.tsx): which
    gauges it shows, chosen by key presence, and the colour of each model's
    row. */
module Breakdown {
  import opened Wrappers
  import opened Contract

  /** A gauge: its label and the value shown; None is JavaScript's
      `undefined`, read from a key that is absent. */
  datatype Gauge = Gauge(name: string, value: Option<real>)

  /** Reading one score: `data.<key>`, undefined when the key is absent. */
  function Score(data: BreakdownData, key: string): Option<real>
  {
    if key in data.scores then Some(data.scores[key]) else None
  }

  /** Which score each gauge label (its `name`) shows. */
  function GaugeKey(name: string): string
  {
    match name
    case "AI" => "aiLikelihood"
    case "Deepfake" => "deepfakeLikelihood"
    case "Quality" => "qualityScore"
    case "Readability" => "readabilityScore"
    case "Originality" => "originalityScore"
    case _ => ""
  }

  /** `getGauges`. */
  function Gauges(data: BreakdownData): (r: seq<Gauge>)
    // a deepfake key selects the media gauges, whatever else is present
    ensures "deepfakeLikelihood" in data.scores ==>
      |r| == 3 && r[0].name == "AI" && r[1].name == "Deepfake" && r[2].name == "Quality"
    // otherwise a readability key selects the text gauges
    ensures "deepfakeLikelihood" !in data.scores && "readabilityScore" in data.scores ==>
      |r| == 3 && r[0].name == "AI" && r[1].name == "Readability" && r[2].name == "Originality"
    // with neither key there are no gauges
    ensures "deepfakeLikelihood" !in data.scores && "readabilityScore" !in data.scores ==> r == []
    // every gauge shows its score exactly as given: no clamping, no rounding
    ensures forall i :: 0 <= i < |r| ==> r[i].value == Score(data, GaugeKey(r[i].name))
    // the first gauge, when there is one, is the AI likelihood
    ensures |r| > 0 ==> r[0] == Gauge("AI", Score(data, "aiLikelihood"))
  {
    if "deepfakeLikelihood" in data.scores then
      [Gauge("AI", Score(data, "aiLikelihood")),
       Gauge("Deepfake", Score(data, "deepfakeLikelihood")),
       Gauge("Quality", Score(data, "qualityScore"))]
    else if "readabilityScore" in data.scores then
      [Gauge("AI", Score(data, "aiLikelihood")),
       Gauge("Readability", Score(data, "readabilityScore")),
       Gauge("Originality", Score(data, "originalityScore"))]
    else []
  }

  const Fallback := "hsl(var(--foreground))"

  /** `modelColors`. */
  const ModelColors: map<string, string> := map[
    "Midjourney" := "hsl(var(--chart-1))",
    "DALL-E" := "hsl(var(--chart-2))",
    "4o" := "hsl(var(--chart-3))",
    "GAN" := "hsl(var(--chart-4))",
    "Stable Diffusion" := "hsl(var(--chart-5))",
    "Adobe Firefly" := "hsl(var(--chart-1))",
    "Flux" := "hsl(var(--chart-2))",
    "GPT-3" := "hsl(var(--chart-1))",
    "GPT-4" := "hsl(var(--chart-2))",
    "Gemini" := "hsl(var(--chart-3))",
    "Claude" := "hsl(var(--chart-4))",
    "Llama" := "hsl(var(--chart-5))",
    "Sora" := "hsl(var(--chart-1))",
    "Veo" := "hsl(var(--chart-2))",
    "Kling" := "hsl(var(--chart-3))",
    "Gen-2" := "hsl(var(--chart-4))"
  ]

  const ChartColors: set<string> := {
    "hsl(var(--chart-1))", "hsl(var(--chart-2))", "hsl(var(--chart-3))", "hsl(var(--chart-4))", "hsl(var(--chart-5))"
  }

  /** The properties every plain object literal inherits from
      `Object.prototype`. Indexing `modelColors` with one of these names finds
      the inherited function (or, for `__proto__`, the prototype object). */
  const ObjectPrototypeNames: set<string> := {
    "constructor", "toString", "toLocaleString", "valueOf", "hasOwnProperty", "isPrototypeOf",
    "propertyIsEnumerable", "__proto__", "__defineGetter__", "__defineSetter__",
    "__lookupGetter__", "__lookupSetter__"
  }

  /** What the style's `backgroundColor` receives: a CSS colour string, or an
      inherited non-string value that `??` lets through because it is not
      nullish. */
  datatype Swatch = Colour(css: string) | Inherited(name: string)

  /** `modelColors[name] ?? 'hsl(var(--foreground))'` on a plain object. */
  function ModelColor(name: string): (r: Swatch)
    // only the inherited property names miss both the table and the fallback
    ensures r.Inherited? <==> name in ObjectPrototypeNames
    // every colour given is a chart colour or the foreground colour
    ensures r.Colour? ==> r.css in ChartColors || r.css == Fallback
  {
    if name in ModelColors then Colour(ModelColors[name])
    else if name in ObjectPrototypeNames then Inherited(name)
    else Colour(Fallback)
  }

  /** A listed model gets its table colour, one of the five chart colours; the
      foreground colour marks exactly the names that are neither listed nor
      inherited from `Object.prototype`. */
  lemma ModelColorPalette(name: string)
    ensures name in ModelColors ==> ModelColor(name) == Colour(ModelColors[name]) && ModelColors[name] in ChartColors
    ensures ModelColor(name) == Colour(Fallback) <==> name !in ModelColors && name !in ObjectPrototypeNames
  {
    assert Fallback !in ChartColors;
    if name in ModelColors {
      assert ModelColors[name] in ModelColors.Values;
    }
  }

  /** One line of the "Model Likeliness" list. */
  datatype ModelRow = ModelRow(model: string, color: Swatch, likelihood: real)

  /** The model list as rendered: in input order, one row per entry. */
  function ModelRows(data: BreakdownData): (r: seq<ModelRow>)
    ensures |r| == |data.modelLikelihoods|
    // nothing is dropped or reordered, a zero or negative likelihood included
    ensures forall i :: 0 <= i < |r| ==>
      r[i].model == data.modelLikelihoods[i].model && r[i].likelihood == data.modelLikelihoods[i].likelihood
    ensures forall i :: 0 <= i < |r| ==> r[i].color == ModelColor(r[i].model)
  {
    seq(|data.modelLikelihoods|, i requires 0 <= i < |data.modelLikelihoods| =>
      ModelRow(data.modelLikelihoods[i].model, ModelColor(data.modelLikelihoods[i].model),
               data.modelLikelihoods[i].likelihood))
  }

  /** What the card renders, or None when rendering throws: `'k' in data`
      raises a TypeError when `data` is undefined. */
  datatype Card = Card(gauges: seq<Gauge>, rows: seq<ModelRow>)

  function Render(data: Option<BreakdownData>): (r: Option<Card>)
    ensures r.Some? <==> data.Some?
    // a present breakdown shows its gauges and its model rows
    ensures data.Some? ==> r == Some(Card(Gauges(data.value), ModelRows(data.value)))
  {
    match data
    case None => None
    case Some(b) => Some(Card(Gauges(b), ModelRows(b)))
  }

  /** For outputs shaped as the flows declare them: an image output shows
      the AI, Deepfake and Quality gauges with all three values defined; text
      and video outputs have no breakdown, so the card cannot render them;
      and the readability gauges are shown for none of them. */
  lemma ShapedBreakdowns(o: AnalysisOutput)
    ensures ImageShaped(o) ==>
      var g := Render(o.dataBreakdown).value.gauges;
      && |g| == 3 && g[0].name == "AI" && g[1].name == "Deepfake" && g[2].name == "Quality"
      && g[0].value.Some? && g[1].value.Some? && g[2].value.Some?
    ensures TextShaped(o) || VideoShaped(o) ==> Render(o.dataBreakdown).None?
    ensures TextShaped(o) || ImageShaped(o) || VideoShaped(o) ==>
      forall c :: Render(o.dataBreakdown) == Some(c) ==>
        forall i :: 0 <= i < |c.gauges| ==> c.gauges[i].name != "Readability"
  {
  }

  /** What the chat report's closing `data_breakdown` message shows: the
      card, nothing, or a render that throws. */
  datatype View = Crashed | Hidden | Shown(card: Card)

  /** The report's closing message as written: it always mounts the card
      with the output's `dataBreakdown`, present or not. */
  function ReportCardAsWritten(o: AnalysisOutput): (r: View)
    ensures r == Crashed <==> o.dataBreakdown.None?
    ensures o.dataBreakdown.Some? ==>
      r == Shown(Card(Gauges(o.dataBreakdown.value), ModelRows(o.dataBreakdown.value)))
  {
    match Render(o.dataBreakdown)
    case None => Crashed
    case Some(c) => Shown(c)
  }

  /** Every text or video output, as the flows declare them, makes the
      report's closing message throw. */
  lemma TextAndVideoReportsCrash(o: AnalysisOutput)
    requires TextShaped(o) || VideoShaped(o)
    ensures ReportCardAsWritten(o) == Crashed
  {
    ShapedBreakdowns(o);
  }

  /** The closing message with the card mounted only when there is a
      breakdown to show. */
  function ReportCard(o: AnalysisOutput): (r: View)
    // it never throws
    ensures r != Crashed
    // it hides the card exactly when there is no breakdown
    ensures r == Hidden <==> o.dataBreakdown.None?
    // and shows what the code as written shows whenever that does not throw
    ensures ReportCardAsWritten(o) != Crashed ==> r == ReportCardAsWritten(o)
  {
    if o.dataBreakdown.None? then Hidden else ReportCardAsWritten(o)
  }
}

=== FILE: chat_report.dfy ===
/** The list builders of the chat-style report
    (src/components/ai-chat-report.tsx): the ordered detail entries, the
    fixed message sequence around them, and the content kind the breakdown
    card is told. */
module ChatReport {
  import opened Wrappers
  import opened Strings
  import opened Contract

  datatype Icon = Bot | User | ScanText | FileImage | FileVideo | Percent

  datatype Detail = Detail(title: string, content: string, icon: Icon)

  datatype Role = UserRole | Assistant

  datatype Message = Message(role: Role, content: string, title: Option<string>, icon: Option<Icon>)

  const PotentialModifications := "Potential Modifications"

  /** One line of a content kind's detail table: the key read and the title shown. */
  datatype Row = Row(key: string, title: string)

  /** The fixed detail table of each branch, in the order the entries are pushed. */
  function DetailRows(m: Modality): seq<Row>
  {
    match m
    case Text => [Row("linguisticPatterns", "Linguistic Patterns"), Row("cohesionAndFlow", "Cohesion & Flow"),
                  Row("commonAiTraits", "Common AI Traits")]
    case Image => [Row("visualInconsistencies", "Visual Inconsistencies"), Row("artifactAnalysis", "Artifact Analysis"),
                   Row("contextualClues", "Contextual Clues")]
    case Video => [Row("temporalInconsistencies", "Temporal Inconsistencies"), Row("artifactAnalysis", "Artifact Analysis"),
                   Row("audioVisualSync", "Audio-Visual Sync")]
  }

  function DetailIcon(m: Modality): Icon
  {
    match m
    case Text => ScanText
    case Image => FileImage
    case Video => FileVideo
  }

  /** The branch the detail builder takes: the first of text, image, video
      whose leading key is present, whatever its value. */
  function DetailModality(d: map<string, string>): Option<Modality>
  {
    if "linguisticPatterns" in d then Some(Text)
    else if "visualInconsistencies" in d then Some(Image)
    else if "temporalInconsistencies" in d then Some(Video)
    else None
  }

  /** One conditional push: present only when the field is truthy. */
  function Entry(d: map<string, string>, key: string, title: string, icon: Icon): seq<Detail>
  {
    if key in d && d[key] != "" then [Detail(title, d[key], icon)] else []
  }

  /** The modality part of `getAnalysisDetails`, branch by branch as written. */
  function ModalityDetails(d: map<string, string>): (r: seq<Detail>)
    // no branch, no entries
    ensures DetailModality(d).None? ==> r == []
    // every entry carries the icon of the one branch chosen by key presence
    ensures forall i :: 0 <= i < |r| ==> DetailModality(d).Some? && r[i].icon == DetailIcon(DetailModality(d).value)
  {
    if "linguisticPatterns" in d then
      Entry(d, "linguisticPatterns", "Linguistic Patterns", ScanText)
      + Entry(d, "cohesionAndFlow", "Cohesion & Flow", ScanText)
      + Entry(d, "commonAiTraits", "Common AI Traits", ScanText)
    else if "visualInconsistencies" in d then
      Entry(d, "visualInconsistencies", "Visual Inconsistencies", FileImage)
      + Entry(d, "artifactAnalysis", "Artifact Analysis", FileImage)
      + Entry(d, "contextualClues", "Contextual Clues", FileImage)
    else if "temporalInconsistencies" in d then
      Entry(d, "temporalInconsistencies", "Temporal Inconsistencies", FileVideo)
      + Entry(d, "artifactAnalysis", "Artifact Analysis", FileVideo)
      + Entry(d, "audioVisualSync", "Audio-Visual Sync", FileVideo)
    else []
  }

  /** `idx` picks, in strictly increasing table order, the rows that `r`
      shows: entry `i` is row `idx[i]` with its field as content. */
  ghost predicate Picks(d: map<string, string>, rows: seq<Row>, icon: Icon, r: seq<Detail>, idx: seq<int>)
  {
    && |idx| == |r|
    && (forall i :: 0 <= i < |idx| ==>
          0 <= idx[i] < |rows| && rows[idx[i]].key in d && r[i] == Detail(rows[idx[i]].title, d[rows[idx[i]].key], icon))
    && (forall i, j :: 0 <= i < j < |idx| ==> idx[i] < idx[j])
  }

  /** The rows of a table whose field is truthy, in table order, each with
      the field's value as content: what one branch should produce. */
  function KeepTruthy(d: map<string, string>, rows: seq<Row>, icon: Icon): (r: seq<Detail>)
    ensures |r| <= |rows|
    // every entry shows a truthy field
    ensures forall i :: 0 <= i < |r| ==> r[i].icon == icon && r[i].content != ""
    // every row with a truthy field gives an entry
    ensures forall j :: 0 <= j < |rows| && rows[j].key in d && d[rows[j].key] != "" ==>
      Detail(rows[j].title, d[rows[j].key], icon) in r
    // each entry is a row's field, in table order, at most one per row
    ensures exists idx :: Picks(d, rows, icon, r, idx)
  {
    if rows == [] then
      assert Picks(d, rows, icon, [], []);
      []
    else
      var rest := KeepTruthy(d, rows[1..], icon);
      var head := Entry(d, rows[0].key, rows[0].title, icon);
      assert forall j :: 1 <= j < |rows| ==> rows[j] == rows[1..][j - 1];
      PicksCons(d, rows, icon, head, rest);
      head + rest
  }

  /** Putting the first row's entry, if any, in front of the picks from the
      remaining rows gives picks from the whole table. */
  lemma PicksCons(d: map<string, string>, rows: seq<Row>, icon: Icon, head: seq<Detail>, rest: seq<Detail>)
    requires rows != [] && head == Entry(d, rows[0].key, rows[0].title, icon)
    requires exists idx :: Picks(d, rows[1..], icon, rest, idx)
    ensures exists idx :: Picks(d, rows, icon, head + rest, idx)
  {
    var idx :| Picks(d, rows[1..], icon, rest, idx);
    var shifted := Shift(idx);
    PicksShift(d, rows, icon, rest, idx);
    if head == [] {
      assert head + rest == rest;
      assert Picks(d, rows, icon, head + rest, shifted);
    } else {
      PicksPrepend(d, rows, icon, head[0], rest, shifted);
      assert head + rest == [head[0]] + rest;
      assert Picks(d, rows, icon, head + rest, [0] + shifted);
    }
  }

  /** Every index one further on. */
  function Shift(idx: seq<int>): (r: seq<int>)
    ensures |r| == |idx| && forall i :: 0 <= i < |idx| ==> r[i] == idx[i] + 1
  {
    seq(|idx|, k requires 0 <= k < |idx| => idx[k] + 1)
  }

  /** Picks from the rows after the first are picks from the whole table,
      one row further on. */
  lemma PicksShift(d: map<string, string>, rows: seq<Row>, icon: Icon, rest: seq<Detail>, idx: seq<int>)
    requires rows != [] && Picks(d, rows[1..], icon, rest, idx)
    ensures Picks(d, rows, icon, rest, Shift(idx)) && forall i :: 0 <= i < |idx| ==> Shift(idx)[i] >= 1
  {
    forall i | 0 <= i < |idx|
      ensures rows[Shift(idx)[i]] == rows[1..][idx[i]]
    {
    }
  }

  /** The first row's entry goes in front of picks that avoid the first row. */
  lemma PicksPrepend(d: map<string, string>, rows: seq<Row>, icon: Icon, e: Detail, rest: seq<Detail>, idx: seq<int>)
    requires rows != [] && rows[0].key in d && e == Detail(rows[0].title, d[rows[0].key], icon)
    requires Picks(d, rows, icon, rest, idx) && forall i :: 0 <= i < |idx| ==> idx[i] >= 1
    ensures Picks(d, rows, icon, [e] + rest, [0] + idx)
  {
    var all, r := [0] + idx, [e] + rest;
    assert forall i :: 1 <= i < |all| ==> all[i] == idx[i - 1] && r[i] == rest[i - 1];
  }

  /** A three-row table filters row by row. */
  lemma KeepThree(d: map<string, string>, r0: Row, r1: Row, r2: Row, icon: Icon)
    ensures KeepTruthy(d, [r0, r1, r2], icon)
      == Entry(d, r0.key, r0.title, icon) + Entry(d, r1.key, r1.title, icon) + Entry(d, r2.key, r2.title, icon)
  {
    var e0, e1, e2 := Entry(d, r0.key, r0.title, icon), Entry(d, r1.key, r1.title, icon), Entry(d, r2.key, r2.title, icon);
    assert [r2][1..] == [];
    assert KeepTruthy(d, [r2], icon) == e2 + KeepTruthy(d, [], icon) == e2;
    assert [r1, r2][1..] == [r2];
    assert KeepTruthy(d, [r1, r2], icon) == e1 + e2;
    assert [r0, r1, r2][1..] == [r1, r2];
    assert KeepTruthy(d, [r0, r1, r2], icon) == e0 + (e1 + e2);
    assert e0 + (e1 + e2) == e0 + e1 + e2;
  }

  /** The branch as written is the table-driven filter of the branch chosen
      by key presence, and nothing when no branch applies: at most one branch
      ever contributes. */
  lemma ModalityDetailsByTable(d: map<string, string>)
    ensures ModalityDetails(d) ==
      match DetailModality(d)
      case None => []
      case Some(m) => KeepTruthy(d, DetailRows(m), DetailIcon(m))
  {
    if "linguisticPatterns" in d {
      var rows := DetailRows(Text);
      KeepThree(d, rows[0], rows[1], rows[2], ScanText);
    } else if "visualInconsistencies" in d {
      var rows := DetailRows(Image);
      KeepThree(d, rows[0], rows[1], rows[2], FileImage);
    } else if "temporalInconsistencies" in d {
      var rows := DetailRows(Video);
      KeepThree(d, rows[0], rows[1], rows[2], FileVideo);
    }
  }

  /** What the modality part contributes: at most three entries, none of
      them empty and none titled like the modification entry. */
  lemma ModalityDetailsShape(d: map<string, string>)
    ensures |ModalityDetails(d)| <= 3
    ensures forall i :: 0 <= i < |ModalityDetails(d)| ==>
      ModalityDetails(d)[i].content != "" && ModalityDetails(d)[i].title != PotentialModifications
  {
  }

  /** `getAnalysisDetails`: the potential-modifications entry, then the
      chosen branch's entries. */
  function Details(o: AnalysisOutput): (r: seq<Detail>)
    ensures |r| <= 4
    // a leading "Potential Modifications" entry exactly for an AI verdict with modification areas
    ensures (|r| > 0 && r[0].title == PotentialModifications)
      <==> o.isAiGenerated && Truthy(o.potentialModificationAreas)
    ensures o.isAiGenerated && Truthy(o.potentialModificationAreas) ==>
      r[0] == Detail(PotentialModifications, o.potentialModificationAreas.value, Bot)
    // and never anywhere else
    ensures forall i :: 1 <= i < |r| ==> r[i].title != PotentialModifications
    // only truthy fields make entries
    ensures forall i :: 0 <= i < |r| ==> r[i].content != ""
    // after the lead come the truthy fields of the branch chosen by key presence, in row order
    ensures var k := if o.isAiGenerated && Truthy(o.potentialModificationAreas) then 1 else 0;
      r[k..] == match DetailModality(o.detailedAnalysis)
        case None => []
        case Some(m) => KeepTruthy(o.detailedAnalysis, DetailRows(m), DetailIcon(m))
  {
    var lead := if o.isAiGenerated && Truthy(o.potentialModificationAreas)
      then [Detail(PotentialModifications, o.potentialModificationAreas.value, Bot)]
      else [];
    var rest := ModalityDetails(o.detailedAnalysis);
    ModalityDetailsShape(o.detailedAnalysis);
    ModalityDetailsByTable(o.detailedAnalysis);
    assert (lead + rest)[|lead|..] == rest;
    lead + rest
  }

  function DeterminationText(isAiGenerated: bool): string
  {
    "After analyzing the content, I've determined that it is **"
    + (if isAiGenerated then "likely AI-Generated" else "likely Human-Created") + "**."
  }

  function DetailMessage(d: Detail): Message
  {
    Message(Assistant, d.content, Some(d.title), Some(d.icon))
  }

  const UserPrompt := Message(UserRole, "Can you analyze this?", None, None)
  const BreakdownSentinel := Message(Assistant, "data_breakdown", None, None)

  const ConfidencePrefix := "My confidence in this assessment is **"

  /** The text of the confidence message: the rounded percentage, then the summary. */
  function ConfidenceText(confidence: int, summary: string): string
  {
    ConfidencePrefix + IntToString(confidence) + "%**. " + summary
  }

  /** Reads the percentage back out of a confidence message: the integer
      between the fixed prefix and the first `%`. */
  function ReadConfidence(content: string): Option<int>
  {
    if !StartsWith(content, ConfidencePrefix) then None
    else
      var rest := content[|ConfidencePrefix|..];
      match IndexOf(rest, '%')
      case None => None
      case Some(k) => ParseInt(rest[..k])
  }

  /** The three messages before the details: the user's prompt, the verdict
      and the confidence summary. */
  function Opening(o: AnalysisOutput, confidence: int): (r: seq<Message>)
    ensures |r| == 3 && r[0] == UserPrompt
    ensures r[1].role == Assistant && r[1].title == Some("Initial Determination")
    ensures r[1].content == DeterminationText(o.isAiGenerated)
    ensures r[1].icon == Some(if o.isAiGenerated then Bot else User)
    ensures r[2].role == Assistant && r[2].title == Some("Confidence Score & Summary") && r[2].icon == Some(Percent)
    ensures r[2].content == ConfidenceText(confidence, o.analysis)
  {
    [UserPrompt,
     Message(Assistant, DeterminationText(o.isAiGenerated), Some("Initial Determination"),
             Some(if o.isAiGenerated then Bot else User)),
     Message(Assistant, ConfidenceText(confidence, o.analysis), Some("Confidence Score & Summary"), Some(Percent))]
  }

  /** One assistant message per detail entry, in order. */
  function DetailMessages(ds: seq<Detail>): (r: seq<Message>)
    ensures |r| == |ds|
    ensures forall i :: 0 <= i < |ds| ==> r[i] == DetailMessage(ds[i])
  {
    seq(|ds|, i requires 0 <= i < |ds| => DetailMessage(ds[i]))
  }

  /** The `messages` list. `confidence` is `Math.round(confidenceScore * 100)`. */
  function Messages(o: AnalysisOutput, confidence: int): (r: seq<Message>)
    ensures |r| == 4 + |Details(o)|
    ensures r[0] == UserPrompt
    ensures r[1].role == Assistant && r[1].title == Some("Initial Determination")
    ensures r[1].content == DeterminationText(o.isAiGenerated)
    ensures r[1].icon == Some(if o.isAiGenerated then Bot else User)
    ensures r[2].role == Assistant && r[2].title == Some("Confidence Score & Summary") && r[2].icon == Some(Percent)
    ensures r[2].content == ConfidenceText(confidence, o.analysis)
    // the details follow, in their order, as assistant messages
    ensures forall i :: 0 <= i < |Details(o)| ==> r[3 + i] == DetailMessage(Details(o)[i])
    // and the breakdown sentinel closes the list
    ensures r[|r| - 1] == BreakdownSentinel
  {
    var head := Opening(o, confidence);
    var ds := Details(o);
    var body := DetailMessages(ds);
    var r := head + body + [BreakdownSentinel];
    assert r[..3] == head;
    assert r[3..|r|-1] == body;
    r
  }

  /** The confidence message carries the percentage it was built from: it
      reads back as exactly that integer, whatever the summary says. */
  lemma ConfidenceReadBack(o: AnalysisOutput, confidence: int)
    ensures ReadConfidence(Messages(o, confidence)[2].content) == Some(confidence)
  {
    ReadConfidenceText(confidence, o.analysis);
  }

  lemma ReadConfidenceText(confidence: int, summary: string)
    ensures ReadConfidence(ConfidenceText(confidence, summary)) == Some(confidence)
  {
    var t := IntToString(confidence);
    var tail := "%**. " + summary;
    var content := ConfidenceText(confidence, summary);
    assert content == ConfidencePrefix + (t + tail);
    assert content[..|ConfidencePrefix|] == ConfidencePrefix;
    assert content[|ConfidencePrefix|..] == t + tail;
    IntToStringHasNo(confidence, '%');
    IndexOfAfter(t, tail, '%');
    assert (t + tail)[..|t|] == t;
    ParseIntToString(confidence);
  }

  /** The verdict sentence tells the two verdicts apart, so the determination
      message depends on the verdict alone. */
  lemma DeterminationTextDistinct(a: bool, b: bool)
    ensures DeterminationText(a) == DeterminationText(b) <==> a == b
  {
  }

  /** The kind the breakdown card is told: text when `linguisticPatterns` is
      present, else video when `temporalInconsistencies` is, else image, even
      when no image key is present. */
  function BreakdownModality(d: map<string, string>): (r: Modality)
    // text exactly when the details take the text branch
    ensures r == Text <==> DetailModality(d) == Some(Text)
    // video only with the video branch's leading key, image otherwise
    ensures r == Video ==> "temporalInconsistencies" in d
    ensures r == Image <==> DetailModality(d) != Some(Text) && "temporalInconsistencies" !in d
  {
    if "linguisticPatterns" in d then Text
    else if "temporalInconsistencies" in d then Video
    else Image
  }

  /** The two inferences test image and video in opposite orders. They agree
      on every branch the details take, except an object with both
      `visualInconsistencies` and `temporalInconsistencies` (and no
      `linguisticPatterns`): its details come from the image table and its
      breakdown is told video. With no branch, the breakdown still says image. */
  lemma ModalityInferencesAgree(d: map<string, string>)
    ensures DetailModality(d).Some? ==>
      (BreakdownModality(d) == DetailModality(d).value <==>
         !("linguisticPatterns" !in d && "visualInconsistencies" in d && "temporalInconsistencies" in d))
    ensures DetailModality(d).None? ==> BreakdownModality(d) == Image
  {
  }

  /** For outputs shaped as the flows declare them, the two inferences agree
      whenever the output carries its kind's leading key. */
  lemma ShapedOutputsAgree(o: AnalysisOutput)
    requires TextShaped(o) || ImageShaped(o) || VideoShaped(o)
    ensures DetailModality(o.detailedAnalysis).Some? ==>
      BreakdownModality(o.detailedAnalysis) == DetailModality(o.detailedAnalysis).value
  {
    var d := o.detailedAnalysis;
    if ImageShaped(o) {
      assert "temporalInconsistencies" !in ImageDetailKeys;
    } else if TextShaped(o) {
      assert "visualInconsistencies" !in TextDetailKeys;
    }
  }
}

=== FILE: contract.dfy ===
/** The shapes exchanged with the analysis flows: the three content kinds and
    the structured output the panel stores and the report components render.
    Fields the code tests by key presence (`'k' in obj`) are maps, so that an
    absent key and a present but empty value stay distinct. */
module Contract {
  import opened Wrappers

  /** The panel's `analysisType`. */
  datatype Modality = Text | Image | Video

  /** The lower-case name the code interpolates into messages and MIME prefixes. */
  function Name(m: Modality): string
  {
    match m
    case Text => "text"
    case Image => "image"
    case Video => "video"
  }

  /** JavaScript truthiness of an optional string: present and non-empty. */
  predicate Truthy(s: Option<string>)
  {
    s.Some? && s.value != ""
  }

  datatype ModelLikelihood = ModelLikelihood(model: string, likelihood: real)

  /** `dataBreakdown`: its numeric scores by key and the per-model list. */
  datatype BreakdownData = BreakdownData(scores: map<string, real>, modelLikelihoods: seq<ModelLikelihood>)

  /** One flow output. Numbers are reals and are only passed through. */
  datatype AnalysisOutput = AnalysisOutput(
    isAiGenerated: bool,
    confidenceScore: real,
    analysis: string,
    modelUsed: string,
    detailedAnalysis: map<string, string>,
    potentialModificationAreas: Option<string>,
    dataBreakdown: Option<BreakdownData>)

  const TextDetailKeys: set<string> := {"linguisticPatterns", "cohesionAndFlow", "commonAiTraits"}
  const ImageDetailKeys: set<string> := {"visualInconsistencies", "artifactAnalysis", "contextualClues"}
  const VideoDetailKeys: set<string> := {"temporalInconsistencies", "artifactAnalysis", "audioVisualSync"}
  const ImageScoreKeys: set<string> := {"aiLikelihood", "deepfakeLikelihood", "qualityScore"}

  /** An output with only the keys the text flow's schema declares: no
      modification areas and no data breakdown. */
  predicate TextShaped(o: AnalysisOutput)
  {
    o.detailedAnalysis.Keys <= TextDetailKeys && o.potentialModificationAreas.None? && o.dataBreakdown.None?
  }

  /** An output with only the keys the image flow's schema declares, and its
      three required scores. */
  predicate ImageShaped(o: AnalysisOutput)
  {
    o.detailedAnalysis.Keys <= ImageDetailKeys && o.dataBreakdown.Some? && o.dataBreakdown.value.scores.Keys == ImageScoreKeys
  }

  /** An output with only the keys the video flow's schema declares: it has
      no data breakdown. */
  predicate VideoShaped(o: AnalysisOutput)
  {
    o.detailedAnalysis.Keys <= VideoDetailKeys && o.dataBreakdown.None?
  }
}

=== FILE: datauri.dfy ===
/** The `data:` URI of section 3 of RFC 2397 in its base64 form,
    `data:<mediatype>;base64,<payload>`, which both the URL normaliser and the
    browser's `readAsDataURL` produce, and a reader for it. */
module DataUri {
  import opened Wrappers
  import opened Strings
  import Base64

  /** Builds the URI from a media type copied verbatim and the payload bytes. */
  function Make(mediaType: string, bs: seq<Base64.byte>): (r: string)
    ensures StartsWith(r, "data:" + mediaType + ";base64,")
  {
    "data:" + mediaType + ";base64," + Base64.Encode(bs)
  }

  datatype Parsed = Parsed(mediaType: string, data: seq<Base64.byte>)

  /** Reads a base64 data URI: the media type runs from after `data:` to the
      `;base64` that must end the header, the header ends at the first comma,
      and the payload after it must decode. */
  function Parse(s: string): (r: Option<Parsed>)
  {
    if !StartsWith(s, "data:") then None
    else match IndexOf(s, ',')
      case None => None
      case Some(k) =>
        if k < 5 then None
        else
          var header := s[5..k];
          if !EndsWith(header, ";base64") then None
          else match Base64.Decode(s[k + 1..])
            case None => None
            case Some(bs) => Some(Parsed(header[..|header| - 7], bs))
  }

  /** A URI built by Make reads back as the media type and bytes it was built
      from exactly when the media type holds no comma: a comma in the media
      type ends the header early. */
  lemma ParseMake(mediaType: string, bs: seq<Base64.byte>)
    ensures Parse(Make(mediaType, bs)) == Some(Parsed(mediaType, bs)) <==> ',' !in mediaType
  {
    var s := Make(mediaType, bs);
    var payload := Base64.Encode(bs);
    var k := 5 + |mediaType| + 7;
    assert s == "data:" + mediaType + ";base64," + payload;
    assert s[..5] == "data:";
    if ',' !in mediaType {
      assert s[k] == ',';
      assert s[..k] == "data:" + mediaType + ";base64";
      assert ',' !in s[..k];
      assert IndexOf(s, ',') == Some(k);
      assert s[5..k] == mediaType + ";base64";
      assert s[k + 1..] == payload;
      Base64.DecodeEncode(bs);
    } else {
      var j :| 0 <= j < |mediaType| && mediaType[j] == ',';
      assert s[5 + j] == ',';
      var m := IndexOf(s, ',').value;
      assert m <= 5 + j;
    }
  }

  /** The pieces Parse found in a URI it accepts. */
  lemma ParseParts(s: string) returns (k: nat)
    requires Parse(s).Some?
    ensures 5 <= k < |s| && s[..5] == "data:" && s[k] == ','
    ensures s[5..k] == Parse(s).value.mediaType + ";base64"
    ensures Base64.Decode(s[k + 1..]) == Some(Parse(s).value.data)
  {
    k := IndexOf(s, ',').value;
    var header := s[5..k];
    assert header == header[..|header| - 7] + ";base64";
  }

  lemma Reassemble(s: string, k: nat, mediaType: string, payload: string)
    requires 5 <= k < |s| && s[..5] == "data:" && s[k] == ','
    requires s[5..k] == mediaType + ";base64" && s[k + 1..] == payload
    ensures "data:" + mediaType + ";base64," + payload == s
  {
    assert s == s[..5] + s[5..k] + [','] + s[k + 1..];
  }

  /** Every URI Parse accepts is the one Make builds from what it read. */
  lemma MakeParse(s: string, p: Parsed)
    requires Parse(s) == Some(p)
    ensures Make(p.mediaType, p.data) == s
  {
    var k := ParseParts(s);
    Base64.EncodeDecode(s[k + 1..]);
    Reassemble(s, k, p.mediaType, Base64.Encode(p.data));
  }
}

=== FILE: panel.dfy ===
/** The analysis panel (src/components/analysis-panel.tsx) as a state machine
    over its React state. Each handler is a function from the state before to
    the state after; the asynchronous collaborators (FileReader, the
    `mediaUrlToDataUri` server action's fetch, the analysis flow) appear as
    given outcomes. */
module Panel {
  import opened Wrappers
  import opened Strings
  import Base64
  import DataUri
  import Actions
  import opened Contract

  datatype InputType = Upload | UrlInput

  /** The panel's props other than the analysis action. */
  datatype Config = Config(analysisType: Modality, fileTypes: Option<string>, fileTypeDescription: Option<string>)

  /** The three panels the page mounts (src/components/ai-human-detector.tsx). */
  const TextPanel := Config(Text, None, None)
  const ImagePanel := Config(Image, Some("image/png, image/jpeg, image/webp, image/avif"), Some("PNG, JPG, WEBP, or AVIF"))
  const VideoPanel := Config(Video, Some("video/mp4, video/webm"), Some("MP4, WEBM"))

  datatype State = State(
    mediaPreview: Option<string>,
    text: string,
    analysis: Option<AnalysisOutput>,
    isLoading: bool,
    error: Option<string>,
    url: string,
    inputType: InputType)

  const Initial := State(None, "", None, false, None, "", Upload)

  /** A dropped or chosen file: its browser-reported MIME type and contents. */
  datatype File = File(mimeType: string, bytes: seq<Base64.byte>)

  datatype ReadOutcome = ReadSucceeded | ReadFailed

  /** The object handed to the analysis action. */
  datatype Request = TextRequest(text: string) | PhotoRequest(photoDataUri: string) | VideoRequest(videoDataUri: string)

  /** What the analysis action does: resolve with an output, or throw. */
  datatype AnalyzeOutcome = Analyzed(output: AnalysisOutput) | AnalyzeThrew(message: string)

  /** The state after `handleAnalyze`, and the request it sent, if any. */
  datatype Step = Step(state: State, request: Option<Request>)

  const ReadError := "Failed to read the selected file."
  const EmptyTextError := "Please enter some text to analyze."
  const UnexpectedError := "An unexpected error occurred during analysis."

  /** A missing optional prop renders as `undefined` in a template literal. */
  function Rendered(s: Option<string>): string
  {
    match s
    case None => "undefined"
    case Some(v) => v
  }

  function FileTypeError(cfg: Config): string
  {
    "Please upload a " + Name(cfg.analysisType) + " file (e.g., " + Rendered(cfg.fileTypeDescription) + ")."
  }

  function NoMediaError(cfg: Config): string
  {
    "Please select a " + Name(cfg.analysisType) + " or provide a URL."
  }

  /** The MIME gate: only a panel with `fileTypes` checks the file's type,
      and then only its prefix `<analysisType>/`. */
  predicate PassesFileGate(cfg: Config, f: File)
  {
    !Truthy(cfg.fileTypes) || StartsWith(f.mimeType, Name(cfg.analysisType) + "/")
  }

  /** `handleFileSelect` as written. FileReader fires `loadend` after `error`
      as well as after `load`, so on a failed read the `onloadend` handler
      runs last: it stores the reader's null result as the preview and clears
      the error that `onerror` has just set. */
  function HandleFileSelectAsWritten(cfg: Config, s: State, file: Option<File>, read: ReadOutcome): (r: State)
    ensures file.Some? && PassesFileGate(cfg, file.value) && read == ReadFailed ==>
      r.error == None && r.mediaPreview == None
  {
    match file
    case None => s
    case Some(f) =>
      if !PassesFileGate(cfg, f) then s.(error := Some(FileTypeError(cfg)))
      else
        match read
        case ReadSucceeded => s.(mediaPreview := Some(DataUri.Make(f.mimeType, f.bytes)), analysis := None, error := None)
        case ReadFailed =>
          var afterError := s.(error := Some(ReadError));
          afterError.(mediaPreview := None, analysis := None, error := None)
  }

  /** `handleFileSelect` with the preview update on `load` only, so that a
      failed read leaves the preview alone and shows its error. */
  function HandleFileSelect(cfg: Config, s: State, file: Option<File>, read: ReadOutcome): (r: State)
    // nothing chosen: nothing changes
    ensures file.None? ==> r == s
    // a file of the wrong kind is refused without being read
    ensures file.Some? && !PassesFileGate(cfg, file.value) ==> r == s.(error := Some(FileTypeError(cfg)))
    // an accepted, readable file becomes the preview and clears result and error
    ensures file.Some? && PassesFileGate(cfg, file.value) && read == ReadSucceeded ==>
      && r.mediaPreview == Some(DataUri.Make(file.value.mimeType, file.value.bytes))
      && r.analysis == None && r.error == None
    // a failed read shows its error and keeps the old preview
    ensures file.Some? && PassesFileGate(cfg, file.value) && read == ReadFailed ==>
      r.error == Some(ReadError) && r.mediaPreview == s.mediaPreview
    // the text, URL, input mode and loading flag are never touched
    ensures r.text == s.text && r.url == s.url && r.inputType == s.inputType && r.isLoading == s.isLoading
  {
    match file
    case None => s
    case Some(f) =>
      if !PassesFileGate(cfg, f) then s.(error := Some(FileTypeError(cfg)))
      else
        match read
        case ReadSucceeded => s.(mediaPreview := Some(DataUri.Make(f.mimeType, f.bytes)), analysis := None, error := None)
        case ReadFailed => s.(error := Some(ReadError))
  }

  /** The two versions differ only on a failed read: the one as written
      loses the error message the user should see, and the preview too. */
  lemma ReadFailureMessageLost(cfg: Config, s: State, f: File)
    requires PassesFileGate(cfg, f)
    ensures HandleFileSelectAsWritten(cfg, s, Some(f), ReadFailed).error == None
    ensures HandleFileSelect(cfg, s, Some(f), ReadFailed).error == Some(ReadError)
  {
  }

  /** Everywhere else the two versions agree. */
  lemma FileSelectVersionsAgree(cfg: Config, s: State, file: Option<File>, read: ReadOutcome)
    requires read == ReadSucceeded || file.None? || !PassesFileGate(cfg, file.value)
    ensures HandleFileSelectAsWritten(cfg, s, file, read) == HandleFileSelect(cfg, s, file, read)
  {
  }

  /** The gates of the three mounted panels: the text panel checks nothing,
      and the media panels check only the `image/` or `video/` prefix, not the
      list in `fileTypes`, so a GIF passes the image panel's gate although the
      list names only PNG, JPEG, WEBP and AVIF. */
  lemma MountedPanelGates(f: File)
    ensures PassesFileGate(TextPanel, f)
    ensures PassesFileGate(ImagePanel, f) <==> StartsWith(f.mimeType, "image/")
    ensures PassesFileGate(VideoPanel, f) <==> StartsWith(f.mimeType, "video/")
    ensures PassesFileGate(ImagePanel, File("image/gif", f.bytes))
    ensures !PassesFileGate(VideoPanel, File("image/png", f.bytes))
  {
    assert "image/png"[..6] != "video/" by { assert "image/png"[..6][0] == 'i'; }
  }

  /** A file accepted by a media panel's gate yields a preview whose media
      type is of the panel's kind, read back from the data URI. */
  lemma AcceptedFileHasPanelKind(cfg: Config, s: State, f: File)
    requires cfg.analysisType != Text && Truthy(cfg.fileTypes)
    requires PassesFileGate(cfg, f) && ',' !in f.mimeType
    ensures var p := DataUri.Parse(HandleFileSelect(cfg, s, Some(f), ReadSucceeded).mediaPreview.value);
      p.Some? && StartsWith(p.value.mediaType, Name(cfg.analysisType) + "/") && p.value.data == f.bytes
  {
    DataUri.ParseMake(f.mimeType, f.bytes);
  }

  /** `resetState`: everything but the input mode goes back to its initial value. */
  function ResetState(s: State): (r: State)
    ensures r.inputType == s.inputType
    ensures r.mediaPreview.None? && r.text == "" && r.analysis.None? && !r.isLoading && r.error.None? && r.url == ""
  {
    State(None, "", None, false, None, "", s.inputType)
  }

  /** Reset forgets everything but the input mode: two states with the same
      mode reset to the same state, and resetting twice is resetting once. */
  lemma ResetForgets(s1: State, s2: State)
    requires s1.inputType == s2.inputType
    ensures ResetState(s1) == ResetState(s2)
    ensures ResetState(ResetState(s1)) == ResetState(s1)
  {
  }

  /** `handleInputTypeChange`: switching to another mode resets the panel;
      choosing the current mode does nothing. */
  function HandleInputTypeChange(s: State, t: InputType): (r: State)
    ensures r.inputType == t
    ensures s.inputType == t ==> r == s
    ensures s.inputType != t ==> r == ResetState(s).(inputType := t)
  {
    if s.inputType != t then ResetState(s).(inputType := t) else s
  }

  /** Choosing a mode twice is choosing it once, and leaving a mode and
      coming back leaves a reset panel. */
  lemma InputTypeChangeProperties(s: State, t: InputType, u: InputType)
    ensures HandleInputTypeChange(HandleInputTypeChange(s, t), t) == HandleInputTypeChange(s, t)
    ensures u != s.inputType ==> HandleInputTypeChange(HandleInputTypeChange(s, u), s.inputType) == ResetState(s)
  {
  }

  /** The result view's "Start Over": reset, then back to upload mode. */
  function StartOver(s: State): (r: State)
    ensures r == Initial
  {
    ResetState(s).(inputType := Upload)
  }

  /** The request key follows the panel's kind. */
  function MediaRequest(t: Modality, dataUri: string): (r: Request)
    requires t != Text
    ensures r.PhotoRequest? <==> t.Image?
    ensures r.VideoRequest? <==> t.Video?
    // and the request carries the data URI it was given
    ensures r == PhotoRequest(dataUri) || r == VideoRequest(dataUri)
  {
    if t.Image? then PhotoRequest(dataUri) else VideoRequest(dataUri)
  }

  /** A local refusal: an error is shown, loading stops, nothing is sent. */
  function Rejected(s: State, e: string): Step
  {
    Step(s.(error := Some(e), isLoading := false), None)
  }

  /** The call to the analysis action and the `catch`/`finally` after it. */
  function Dispatch(s: State, req: Request, analyzed: AnalyzeOutcome): Step
  {
    match analyzed
    case Analyzed(o) => Step(s.(analysis := Some(o), isLoading := false), Some(req))
    case AnalyzeThrew(m) =>
      Step(s.(error := Some(if m == "" then UnexpectedError else m), analysis := None, isLoading := false), Some(req))
  }

  /** The media branch once a data URI may be in hand. */
  function SendMedia(cfg: Config, s: State, dataUri: Option<string>, analyzed: AnalyzeOutcome): Step
    requires cfg.analysisType != Text
  {
    if !Truthy(dataUri) then Rejected(s, NoMediaError(cfg))
    else Dispatch(s, MediaRequest(cfg.analysisType, dataUri.value), analyzed)
  }

  /** `handleAnalyze`. `fetched` is what fetching the panel's URL yields; it
      matters only to a media panel in URL mode. */
  function HandleAnalyze(cfg: Config, s: State, fetched: Actions.FetchOutcome, analyzed: AnalyzeOutcome): (r: Step)
    // loading is over on every path
    ensures !r.state.isLoading
    // the inputs the user typed and the mode are kept
    ensures r.state.text == s.text && r.state.url == s.url && r.state.inputType == s.inputType
    // nothing sent: an error is shown and the stored result is untouched
    ensures r.request.None? ==> r.state.error.Some? && r.state.error.value != "" && r.state.analysis == s.analysis
    // something sent: the stored result and the error come from the action
    ensures r.request.Some? && analyzed.Analyzed? ==> r.state.analysis == Some(analyzed.output) && r.state.error.None?
    ensures r.request.Some? && analyzed.AnalyzeThrew? ==>
      && r.state.analysis.None?
      && r.state.error == Some(if analyzed.message == "" then UnexpectedError else analyzed.message)
    // the preview changes only in URL mode, where a fetched data URI replaces it
    ensures cfg.analysisType == Text || s.inputType == Upload ==> r.state.mediaPreview == s.mediaPreview
    // text panel: blank text is refused locally; otherwise the text goes out untrimmed
    ensures cfg.analysisType == Text ==>
      && (r.request.Some? <==> !IsBlank(s.text))
      && (r.request.Some? ==> r.request.value == TextRequest(s.text))
      && (r.request.None? ==> r.state.error == Some(EmptyTextError))
    // media panels: the request key follows the panel's kind
    ensures cfg.analysisType == Image && r.request.Some? ==> r.request.value.PhotoRequest?
    ensures cfg.analysisType == Video && r.request.Some? ==> r.request.value.VideoRequest?
  {
    var busy := s.(isLoading := true, error := None);
    if cfg.analysisType == Text then
      if Trim(s.text) == "" then Rejected(busy, EmptyTextError)
      else Dispatch(busy, TextRequest(s.text), analyzed)
    else if s.inputType == UrlInput then
      match Actions.MediaUrlToDataUri(s.url, fetched)
      case UrlError(e) => Rejected(busy, e)
      case UrlDataUri(d) => SendMedia(cfg, busy.(mediaPreview := Some(d)), Some(d), analyzed)
    else
      SendMedia(cfg, busy, s.mediaPreview, analyzed)
  }

  /** In URL mode the server action's error is shown verbatim and nothing is
      sent; on success the fetched data URI becomes the preview and is what
      gets sent. */
  lemma UrlModeAnalyze(cfg: Config, s: State, fetched: Actions.FetchOutcome, analyzed: AnalyzeOutcome)
    requires cfg.analysisType != Text && s.inputType == UrlInput
    ensures var res := Actions.MediaUrlToDataUri(s.url, fetched);
      var r := HandleAnalyze(cfg, s, fetched, analyzed);
      && (res.UrlError? ==> r.request.None? && r.state.error == Some(res.error) && r.state.mediaPreview == s.mediaPreview)
      && (res.UrlDataUri? ==> r.state.mediaPreview == Some(res.dataUri)
                              && r.request == Some(MediaRequest(cfg.analysisType, res.dataUri)))
  {
  }

  /** In upload mode the stored preview is what gets sent; without one the
      user is asked to select a file or give a URL. */
  lemma UploadModeAnalyze(cfg: Config, s: State, fetched: Actions.FetchOutcome, analyzed: AnalyzeOutcome)
    requires cfg.analysisType != Text && s.inputType == Upload
    ensures var r := HandleAnalyze(cfg, s, fetched, analyzed);
      && (!Truthy(s.mediaPreview) ==> r.request.None? && r.state.error == Some(NoMediaError(cfg)))
      && (Truthy(s.mediaPreview) ==> r.request == Some(MediaRequest(cfg.analysisType, s.mediaPreview.value)))
  {
  }

  /** The analyze button's enable rule. */
  predicate AnalyzeEnabled(cfg: Config, s: State)
    // never while an analysis is running
    ensures AnalyzeEnabled(cfg, s) ==> !s.isLoading
    // in the text panel: exactly when the text is not all whitespace
    ensures cfg.analysisType == Text ==> (AnalyzeEnabled(cfg, s) <==> !s.isLoading && !IsBlank(s.text))
    // in upload mode: exactly when there is a non-empty preview to send
    ensures cfg.analysisType != Text && s.inputType == Upload ==>
      (AnalyzeEnabled(cfg, s) <==> !s.isLoading && s.mediaPreview.Some? && s.mediaPreview.value != "")
    // in URL mode: exactly when a URL has been typed
    ensures cfg.analysisType != Text && s.inputType != Upload ==>
      (AnalyzeEnabled(cfg, s) <==> !s.isLoading && s.url != "")
  {
    !s.isLoading &&
    if cfg.analysisType == Text then Trim(s.text) != ""
    else if s.inputType == Upload then Truthy(s.mediaPreview)
    else s.url != ""
  }

  /** In the text panel and in upload mode the button is enabled exactly when
      pressing it would get past the local checks and send a request. In URL
      mode an enabled button may still end in an error, but any request that
      does go out comes from an enabled button. */
  lemma EnabledMeansSent(cfg: Config, s: State, fetched: Actions.FetchOutcome, analyzed: AnalyzeOutcome)
    requires !s.isLoading
    ensures cfg.analysisType == Text || s.inputType == Upload ==>
      (AnalyzeEnabled(cfg, s) <==> HandleAnalyze(cfg, s, fetched, analyzed).request.Some?)
    ensures HandleAnalyze(cfg, s, fetched, analyzed).request.Some? ==> AnalyzeEnabled(cfg, s)
  {
    if cfg.analysisType != Text && s.inputType == UrlInput {
      var res := Actions.MediaUrlToDataUri(s.url, fetched);
      assert res.UrlDataUri? ==> Actions.PassesUrlCheck(s.url);
    }
  }
}

=== FILE: strings.dfy ===
/** The few JavaScript string operations the modelled code relies on:
    `startsWith`, `includes`, `trim`, `toLowerCase` and the rendering of
    integers in template literals. */
module Strings {
  import opened Wrappers

  /** A JavaScript WhiteSpace or LineTerminator code point: the set that
      `String.prototype.trim` removes from both ends. */
  predicate IsJsWhitespace(c: char)
  {
    || c == '\t' || c == '\n' || c == '\U{000B}' || c == '\U{000C}' || c == '\r'
    || c == ' ' || c == '\U{00A0}' || c == '\U{1680}'
    || ('\U{2000}' <= c <= '\U{200A}')
    || c == '\U{2028}' || c == '\U{2029}' || c == '\U{202F}' || c == '\U{205F}'
    || c == '\U{3000}' || c == '\U{FEFF}'
  }

  /** Every character of `s` is whitespace (this includes the empty string). */
  predicate IsBlank(s: string)
  {
    forall i :: 0 <= i < |s| ==> IsJsWhitespace(s[i])
  }

  predicate StartsWith(s: string, prefix: string)
  {
    |prefix| <= |s| && s[..|prefix|] == prefix
  }

  predicate EndsWith(s: string, suffix: string)
  {
    |suffix| <= |s| && s[|s| - |suffix|..] == suffix
  }

  predicate OccursAt(s: string, sub: string, i: int)
  {
    0 <= i && i + |sub| <= |s| && s[i..i + |sub|] == sub
  }

  /** `s.includes(sub)`: case-sensitive substring search. */
  predicate Contains(s: string, sub: string)
  {
    exists i | 0 <= i <= |s| - |sub| :: OccursAt(s, sub, i)
  }

  /** `s.trimStart()`: drops the longest whitespace prefix. */
  function TrimStart(s: string): (r: string)
    ensures |r| <= |s| && r == s[|s| - |r|..]
    ensures IsBlank(s[..|s| - |r|])
    ensures r != [] ==> !IsJsWhitespace(r[0])
  {
    if s != [] && IsJsWhitespace(s[0]) then
      var r := TrimStart(s[1..]);
      assert s[..|s| - |r|] == [s[0]] + s[1..][..|s| - 1 - |r|];
      r
    else
      s
  }

  /** `s.trimEnd()`: drops the longest whitespace suffix. */
  function TrimEnd(s: string): (r: string)
    ensures |r| <= |s| && r == s[..|r|]
    ensures IsBlank(s[|r|..])
    ensures r != [] ==> !IsJsWhitespace(r[|r| - 1])
  {
    if s != [] && IsJsWhitespace(s[|s| - 1]) then
      var r := TrimEnd(s[..|s| - 1]);
      assert s[|r|..] == s[..|s| - 1][|r|..] + [s[|s| - 1]];
      r
    else
      s
  }

  /** `s.trim()`. The result is a slice of `s` whose ends are not whitespace,
      with only whitespace cut on either side; it is empty exactly when `s`
      is blank. */
  function Trim(s: string): (r: string)
    ensures exists a, b :: TrimmedSlice(s, a, b) && r == s[a..b]
    ensures r == [] <==> IsBlank(s)
  {
    var t := TrimStart(s);
    var u := TrimEnd(t);
    CutEndsIsSlice(s, t, u);
    u
  }

  /** Cutting a whitespace prefix and then a whitespace suffix leaves a
      trimmed slice. */
  lemma CutEndsIsSlice(s: string, t: string, u: string)
    requires |u| <= |t| <= |s|
    requires t == s[|s| - |t|..] && u == t[..|u|]
    requires IsBlank(s[..|s| - |t|]) && IsBlank(t[|u|..])
    requires t != [] ==> !IsJsWhitespace(t[0])
    requires u != [] ==> !IsJsWhitespace(u[|u| - 1])
    ensures TrimmedSlice(s, |s| - |t|, |s| - |t| + |u|)
    ensures u == s[|s| - |t|..|s| - |t| + |u|]
    ensures u == [] <==> IsBlank(s)
  {
    var a := |s| - |t|;
    var b := a + |u|;
    assert s[b..] == t[|u|..];
    forall k | 0 <= k < a
      ensures IsJsWhitespace(s[k])
    {
      assert s[..a][k] == s[k];
    }
    forall k | b <= k < |s|
      ensures IsJsWhitespace(s[k])
    {
      assert s[b..][k - b] == s[k];
    }
    if u == [] {
      assert s == s[..a];
    } else {
      assert s[a] == t[0];
      assert s[b - 1] == u[|u| - 1];
    }
  }

  /** `s[a..b]` is what remains of `s` once its whitespace ends are cut. */
  ghost predicate TrimmedSlice(s: string, a: int, b: int)
  {
    && 0 <= a <= b <= |s|
    && (forall k :: 0 <= k < a ==> IsJsWhitespace(s[k]))
    && (forall k :: b <= k < |s| ==> IsJsWhitespace(s[k]))
    && (a < b ==> !IsJsWhitespace(s[a]) && !IsJsWhitespace(s[b - 1]))
  }

  /** A slice of a slice is a slice of the original. */
  lemma SliceOfSlice(t: string, a: int, b: int, i: int, j: int)
    requires 0 <= a <= b <= |t| && 0 <= i <= j <= b - a
    ensures t[a..b][i..j] == t[a + i..a + j]
  {
    var x, y := t[a..b][i..j], t[a + i..a + j];
    assert |x| == |y|;
    forall k | 0 <= k < |x|
      ensures x[k] == y[k]
    {
      assert x[k] == t[a + i + k];
    }
  }

  /** `toLowerCase` on one character, restricted to the ASCII letters. */
  function LowerChar(c: char): char
  {
    if 'A' <= c <= 'Z' then (c as int + 32) as char else c
  }

  /** `s.toLowerCase()` (ASCII letters only). */
  function ToLower(s: string): (r: string)
    ensures |r| == |s|
    ensures forall i :: 0 <= i < |s| ==> r[i] == LowerChar(s[i])
  {
    seq(|s|, i requires 0 <= i < |s| => LowerChar(s[i]))
  }

  function DigitChar(d: int): char
    requires 0 <= d < 10
  {
    ('0' as int + d) as char
  }

  predicate IsDigit(c: char)
  {
    '0' <= c <= '9'
  }

  /** Decimal rendering of a natural number, as a template literal shows it. */
  function NatToString(n: nat): (r: string)
    ensures r != []
    ensures forall i :: 0 <= i < |r| ==> IsDigit(r[i])
    ensures n > 0 ==> r[0] != '0'
    decreases n
  {
    if n < 10 then [DigitChar(n)] else NatToString(n / 10) + [DigitChar(n % 10)]
  }

  /** Decimal rendering of an integer, with a leading minus sign when negative. */
  function IntToString(i: int): string
  {
    if i < 0 then "-" + NatToString(-i) else NatToString(i)
  }

  function DigitValue(c: char): nat
    requires IsDigit(c)
  {
    c as int - '0' as int
  }

  predicate AllDigits(s: string)
  {
    forall i :: 0 <= i < |s| ==> IsDigit(s[i])
  }

  /** Reads a string of decimal digits back as a number; the partner of NatToString. */
  function ParseDigits(s: string): nat
    requires AllDigits(s)
  {
    if s == [] then 0 else ParseDigits(s[..|s| - 1]) * 10 + DigitValue(s[|s| - 1])
  }

  lemma {:induction false} ParseNatToString(n: nat)
    ensures ParseDigits(NatToString(n)) == n
    decreases n
  {
    if n >= 10 {
      var s := NatToString(n);
      assert s[..|s| - 1] == NatToString(n / 10);
      ParseNatToString(n / 10);
    }
  }

  /** Reads an optional minus sign and decimal digits back as an integer. */
  function ParseInt(s: string): Option<int>
  {
    if s != [] && AllDigits(s) then Some(ParseDigits(s))
    else if |s| > 1 && s[0] == '-' && AllDigits(s[1..]) then
      var v: int := ParseDigits(s[1..]);
      Some(-v)
    else None
  }

  /** Reading an integer's rendering gives the integer back. */
  lemma ParseIntToString(i: int)
    ensures ParseInt(IntToString(i)) == Some(i)
  {
    if i < 0 {
      var t := IntToString(i);
      assert t[0] == '-' && !IsDigit(t[0]);
      assert t[1..] == NatToString(-i);
      ParseNatToString(-i);
    } else {
      ParseNatToString(i);
    }
  }

  /** An integer's rendering holds only digits and a minus sign. */
  lemma IntToStringHasNo(i: int, c: char)
    requires c != '-' && !IsDigit(c)
    ensures c !in IntToString(i)
  {
    var n := NatToString(if i < 0 then -i else i);
    assert c !in n;
    if i < 0 {
      assert IntToString(i) == "-" + n;
    }
  }

  /** Position of the first occurrence of `c` in `s`. */
  function IndexOf(s: string, c: char): (r: Option<nat>)
    ensures r.Some? ==> r.value < |s| && s[r.value] == c && c !in s[..r.value]
    ensures r.None? ==> c !in s
  {
    if s == [] then None
    else if s[0] == c then Some(0)
    else match IndexOf(s[1..], c)
      case None => None
      case Some(k) =>
        assert s[..k + 1] == [s[0]] + s[1..][..k];
        Some(k + 1)
  }

  /** The first occurrence of `c` in `a + b` is where `b` starts when `a`
      holds no `c` and `b` starts with one. */
  lemma IndexOfAfter(a: string, b: string, c: char)
    requires c !in a && b != [] && b[0] == c
    ensures IndexOf(a + b, c) == Some(|a|)
  {
    var s := a + b;
    assert s[|a|] == c;
    assert forall k :: 0 <= k < |a| ==> s[k] == a[k];
  }
}

=== FILE: wrappers.dfy ===
/** The optional value used wherever the original code has a value that may be
    `null` or `undefined`. */
module Wrappers {
  datatype Option<+T> = None | Some(value: T)
}
